=== FILE: README.md ===
# Mini polaroid booth: a Dafny model of the capture routine

This project models the logic of the photobooth's single React component (`src/App.jsx`).

- **Capture routine.** `executeCapture` turns the current video frame into an "instant photo" card. It:
  - centres a square crop of side `imgSize = min(videoWidth, videoHeight)`;
  - sizes the card with a 5% border on three sides and a 20% band at the bottom;
  - draws the photo mirrored, either through one filter from a fixed recipe table or through the seven-stage `special90s` film pipeline;
  - then draws the optional "cinema" or "chill" captions and the date.
- **Gallery.** Captures are kept newest first. Saving prepends a capture and deleting filters by id.
- **Shutter controller.** This covers the timer countdown, the capture flag with its 500 ms cooldown, the disabled state of the shutter, and the frame toggles.

The model is functional.

- **Canvas calls as data.** The capture routine is the list of canvas calls it issues (`Capture.CaptureOps`), with the values the code computes, including the truncated `canvas.width` and `canvas.height` it reads back for the mirror translation and the date baseline. A small interpreter (`Canvas.Run`) gives those calls the semantics the routine relies on:
  - the current transform, filter and compositing mode;
  - the save/restore stack;
  - a record of every drawing call together with the context it was made in;
  - the canvas sizes, because `drawImage` of a canvas with a zero dimension throws an `InvalidStateError` (the HTML Living Standard's rule for `drawImage` sources). The interpreter then stops, and later calls have no effect.
- **The photo slot, abstractly.** The interpreter tracks which way round the photo faces, and the chain of filters its pixels have passed through. Pixels themselves are not modelled.
- **The film pipeline flips the photo twice.** Its colour-cast stage reads pixels back through a scratch canvas, and its softening stage redraws the card onto itself. Both draws happen under the mirror transform, so each one flips the photo. The two flips cancel: every style ends with the photo mirrored (`Capture.RenderPhoto`), and each read-back works on already-graded pixels.
- **Randomness.** `Math.random()` is injected as a sequence of reals in [0, 1), used three per grain mark.
- **Inputs.** The date string, the capture id (`Date.now()`) and the encoded image URL are opaque inputs.
- **Timers.** They become events: `Tick` for each one-second countdown timeout, and `CooldownOver` for the 500 ms timeout in `saveFinal`.

Lengths are exact reals. The canvas keeps only whole pixels: assigning `canvas.width` or `canvas.height` truncates the value, and the source later reads the truncated values back. The model states this truncation explicitly (`Geometry.CanvasDimension`). Two findings below follow from it.

The code has no check on the frame's size: the only guard is for missing element refs (`src/App.jsx:27`). A frame with no pixels yields an empty 0×0 canvas (`Geometry.EmptyFrameEmptyCard`).

- In the single-pass styles, that empty card is still saved.
- In the film style, the colour-cast read-back at line 84 copies from the 0×0 canvas, and that call throws. The routine stops there: nothing is saved, and the cooldown that lowers the capture flag is never scheduled. After a press with timer 0, the flag stays up, so the shutter stays disabled. This is the third finding below. With timer 3 or 5 the throw happens inside the countdown effect instead (line 210), which ends the component (see "## Left out").

The model follows the code (`Capture.RenderPhoto`, `Controller.ExecuteCapture`, `Controller.EmptyFilmCaptureSticks`).

## Model

| member | source | states |
|---|---|---|
| Geometry.ImgSize | src/App.jsx:35 | the photo side is the smaller of the two frame dimensions: at most each, equal to one |
| Geometry.CanvasDimension | src/App.jsx:39-40 | the canvas keeps the integer part of the non-negative size it is given |
| Geometry.LayoutFor | src/App.jsx:35-40 | border is 1/20 and bottom band 1/5 of the side; the card asked for is 1.1·side by 1.25·side, never wider than tall and strictly taller for a non-empty photo; the canvas dimensions are those values truncated |
| Geometry.WholeCard | src/App.jsx:39-40 | for sides that are multiples of 20 the canvas is exactly 1.1·side by 1.25·side |
| Geometry.EmptyFrameEmptyCard | src/App.jsx:27-40 | a frame with zero width produces a 0×0 canvas; nothing rejects it |
| Geometry.CropOf | src/App.jsx:52-53 | the crop lies inside the frame, is centred (equal margins on both sides) and touches the frame on at least one axis |
| Geometry.MirrorPlacesPhoto | src/App.jsx:49-50 | with the intended offset, slot coordinates [0, side] map onto [padding, padding+side] with order reversed; the photo is exactly framed by the two side borders, and lies within the truncated canvas once the side is at least 20 |
| Geometry.MirrorAsWrittenShift | src/App.jsx:39-50 | as written, the photo's left edge falls short of the border by exactly the fraction the canvas dropped, and it lands on the border if and only if the side is a multiple of 10 |
| Geometry.MirrorAsWrittenLeavesCard | src/App.jsx:39-50 | for a 1×1 frame the as-written translation puts the photo's left edge at a negative x, off the card |
| Geometry.DateBaselineAsWritten | src/App.jsx:162 | the as-written date baseline is inside the canvas, and below the photo once the side is at least 4 |
| Geometry.DateAsWrittenInsidePhoto | src/App.jsx:162 | for sides 1, 2 and 3 the as-written date baseline lies above the photo's bottom edge |
| Geometry.DateBaseline | src/App.jsx:157-162 | the intended date baseline sits two thirds of the way down the bottom band: strictly below the photo and inside the card, and inside the truncated canvas from side 15 on |
| Grain.GrainCount | src/App.jsx:72 | the number of grain marks is the least natural number not below 0.015·side² |
| Grain.MarkAt | src/App.jsx:73-75 | with random values in [0,1), a mark's x and y lie in [0, side) and its alpha in [0, 0.15) |
| Grain.Scatter | src/App.jsx:72-78 | one render draws exactly `GrainCount(side)` marks, each inside the photo square with alpha below 0.15 |
| Grain.ScatterLoop | src/App.jsx:72-78 | the loop with the real-valued guard `i < side*side*0.015` stops after exactly the marks `Scatter` describes |
| Canvas.Step | src/App.jsx:47-127 | one canvas call: `save`/`restore` push and pop the context, `translate`/`scale` compose the transform, filter and blending are set, and every drawing call is recorded with the context it was made in; drawing from a canvas with a zero dimension throws, and after a throw no call has any effect; stated by `Canvas.SaveRestore`, `Canvas.Halted` and the `Capture` effect lemmas |
| Canvas.Halted | src/App.jsx:84-86 | once a call has thrown, the rest of the routine changes nothing |
| Canvas.Translated | src/App.jsx:49 | `translate` shifts later coordinates before the current transform applies |
| Canvas.Scaled | src/App.jsx:50 | `scale` scales later coordinates before the current transform applies |
| Canvas.SaveRestore | src/App.jsx:47-126 | `save()`, calls that do not touch the stack, then `restore()` gives back the context and stack that were there before, whatever filter, transform or blending was set in between, unless a call in between threw |
| Capture.MirrorOps | src/App.jsx:47-50 | the calls `translate(canvas.width - padding, padding)` and `scale(-1, 1)`, with the truncated width; their effect is stated by `Capture.MirrorOpsShift` |
| Capture.MirrorOpsShift | src/App.jsx:39-50 | the mirror calls leave a transform that draws every slot point left of the intended placement by the width truncation dropped (less than one pixel), vertically unchanged; its horizontal map is `Geometry.MirroredX` with the as-written offset, so `Geometry.MirrorAsWrittenShift` is the same fact on one axis; it equals the intended transform if and only if the side is a multiple of 10 |
| Capture.IntendedMirrorPlacesPhoto | src/App.jsx:49-50 | the intended mirror transform maps the slot onto the card's photo area with left and right swapped; this is exactly the area the read-back stages copy from; its horizontal map is `Geometry.MirroredX` with the intended offset, so the placement is derived from `Geometry.MirrorPlacesPhoto` |
| Capture.GrainLandsOnPhoto | src/App.jsx:72-77 | a grain mark inside the square lands on the card's photo area under the intended transform; under the transform as written, at most one pixel further left |
| Capture.FilmHead | src/App.jsx:58-69 | the calls of the base-grade and flash stages; their effect is stated by `Capture.FilmHeadEffect` |
| Capture.FilmTail | src/App.jsx:80-103 | the calls of the colour-cast, vignette, softening and edge-glow stages; their effect is stated by `Capture.FilmTailEffect` |
| Capture.PhotoOps | src/App.jsx:55-125 | the calls of the photo stage for each branch of the style dispatch; their effect is stated by `Capture.PhotoStage` |
| Capture.PhotoPart | src/App.jsx:42-126 | the white background over the truncated canvas, then the photo stage between `save()` and `restore()`; its effect is stated by `Capture.RenderPhoto` |
| Capture.CaptureOps | src/App.jsx:42-162 | every canvas call of `executeCapture` in order: background, mirrored photo, filter reset, captions and date; stated by `Capture.RenderPhoto`, `Capture.RenderTexts` and `Capture.RenderDeterministicOutsideFilm` |
| Capture.Render | src/App.jsx:26-164 | the card the calls leave on a fresh canvas of the truncated size, before encoding, or the state in which a call threw; stated by `Capture.RenderPhoto` and `Capture.RenderTexts` |
| Capture.Throws | src/App.jsx:35-84 | the routine throws exactly for the film style on a frame with no pixels; stated by `Capture.RenderPhoto` |
| Capture.GrainOps | src/App.jsx:72-78 | the grain stage issues one mark per grain and draws no text |
| Capture.FilmHeadEffect | src/App.jsx:58-69 | base grade and flash never throw, keep the canvas size, and leave the photo mirrored and base-graded, with blending back to source-over |
| Capture.FilmTailEffect | src/App.jsx:80-103 | on a canvas with pixels, colour cast, vignette, softening and edge glow do not throw, flip the photo twice, append the cast and blur filters to its chain, and reset the filter |
| Capture.FilmTailThrows | src/App.jsx:82-86 | on a canvas with a zero dimension the colour-cast read-back throws before anything is drawn, and the rest of the film tail has no effect |
| Capture.FilmStage | src/App.jsx:56-103 | on the card canvas the whole film pipeline, grain included, throws exactly when the side is 0; otherwise it ends with the photo mirrored, through base grade, cast and softening in that order, with the context unchanged |
| Capture.PhotoStage | src/App.jsx:55-125 | on the card canvas a style's photo stage throws exactly for the film style with side 0; otherwise it ends with the photo mirrored and drawn through exactly that style's filters ('normal': the context's current filter) |
| Capture.CinemaTexts | src/App.jsx:130-145 | the two cinema captions are centred on the photo inside its area, "ABSOLUTE" above and smaller than "CINEMA" |
| Capture.ChillText | src/App.jsx:147-155 | the chill caption is right-aligned, anchored at equal insets from the photo's bottom-right corner and never right of the photo's edge; the anchor lies on the photo if and only if the side is at least 20 |
| Capture.OverlayTexts | src/App.jsx:129-155 | 'none' draws no caption; cinema draws exactly the cinema pair; chill draws exactly the chill line; a chill caption implies the chill frame and a cinema caption implies the cinema frame |
| Capture.DateText | src/App.jsx:157-162 | the date is left-aligned 15 px right of the photo's left edge; its baseline, measured from the truncated height, sits above the intended one by exactly what truncation dropped, stays on the canvas, and is below the photo from side 4 on |
| Capture.RenderPhoto | src/App.jsx:26-127 | a capture throws if and only if the style is 'special90s' and the frame has no pixels; otherwise the context is back to defaults (filter 'none' whichever branch ran, stack empty), and the photo faces mirrored with exactly the style's filters: film → base grade, cast, softening; 'normal' → none; table id → its recipe; unknown id → none |
| Capture.RenderTexts | src/App.jsx:129-162 | the only texts on a completed card are the selected overlay's captions followed by the date, each drawn with the identity transform and no filter; a capture that threw drew no text |
| Capture.BlackAndWhiteRender | src/App.jsx:109-124 | a 'bw' capture never throws, and leaves the photo mirrored and drawn once through the bw recipe, whose first step is full grayscale |
| Capture.RenderDeterministicOutsideFilm | src/App.jsx:55-125 | outside the film pipeline a capture does not depend on the random values |
| Styles.Lookup | src/App.jsx:121-122 | `filterDefinitions[id] \|\| 'none'` yields 'none' exactly for ids missing from the table, and the table recipe otherwise |
| Styles.Dispatch | src/App.jsx:55-123 | the film branch is taken exactly for 'special90s'; the filter is left unset exactly for 'normal'; the 'none' fallback is used exactly for ids that are neither of these nor table keys |
| Styles.PhotoFilter | src/App.jsx:105-124 | the filter in effect for the single-pass draw: the current one for 'normal', the looked-up one for any other non-film id |
| Styles.SelectableStylesResolve | src/App.jsx:325-336 | every style a button offers is 'special90s', 'normal' or a table key, so no button reaches the fallback; the table's warm and cold recipes are offered by no button |
| Overlays.ToggleCinema | src/App.jsx:369 | the cinema button always changes the frame: it clears it exactly when it was cinema, and never selects chill |
| Overlays.ToggleChill | src/App.jsx:370 | the chill button always changes the frame: it clears it exactly when it was chill, and never selects cinema |
| Overlays.ToggleTwice | src/App.jsx:369-370 | pressing the same frame button twice restores none or that frame, and clears the other frame |
| Gallery.Save | src/App.jsx:17-22 | the new capture is at index 0 and the old gallery is the tail, unchanged |
| Gallery.Remove | src/App.jsx:221-223 | deleting drops every entry with the id, keeps every other entry, keeps the survivors in their original order (a subsequence), and shrinks the list by the number of matching entries |
| Gallery.RemoveConcat | src/App.jsx:222 | deleting distributes over concatenation, so relative order is preserved |
| Gallery.RemoveAbsent | src/App.jsx:222 | deleting an id no entry carries leaves the gallery identical |
| Gallery.RemoveIdempotent | src/App.jsx:222 | deleting twice equals deleting once |
| Gallery.SaveThenRemove | src/App.jsx:221-223 | deleting the id just saved gives the same gallery as deleting it from the gallery before the save; when no older entry has that id, this is the old gallery exactly |
| Gallery.RemoveOnly | src/App.jsx:222 | deleting the only capture empties the gallery |
| Controller.ExecuteCapture | src/App.jsx:23-29 | a capture is saved exactly when the elements are mounted and the render does not throw, with the current style and frame; the capture flag is raised whenever the elements are mounted, but its cooldown is scheduled only when a capture is saved (line 164 reaches line 23); nothing else changes |
| Controller.Released | src/App.jsx:23-29 | the capture flag is up only with a cooldown pending to lower it; `Controller.GuardedCapture` keeps it and `Controller.EmptyFilmCaptureSticks` shows the code as written breaking it |
| Controller.GuardedCapture | src/App.jsx:26-29 | with a not-ready guard that returns before the flag when the frame has no pixels, a capture is saved exactly when the elements are mounted and the frame has pixels, its render never throws, the flag is never left up without a cooldown, and a capture that does not happen changes nothing |
| Controller.Settle | src/App.jsx:200-212 | the countdown effect never leaves a zero countdown in place: at zero it clears the countdown and runs the capture, which saves with the current selections exactly when the elements are mounted and the render does not throw; a capture happens only then; at any other value it changes nothing and fires nothing |
| Controller.Click | src/App.jsx:192-198 | with delay 0 a click is exactly the capture routine, with its flag, cooldown and error behaviour; otherwise it starts the countdown at the delay, fires nothing and changes nothing else |
| Controller.ShutterEnabled | src/App.jsx:362 | the shutter's `disabled={isCapturing \|\| countdown !== null}`, negated; used by `Controller.Step` and stated by `Controller.StepContract` |
| Controller.Step | src/App.jsx:192-212 | one event: a style or delay pick, a frame toggle (lines 369-370), a press of the enabled shutter, a countdown timeout, or the cooldown of line 23, which exists only once a save scheduled it; stated by `Controller.StepContract` |
| Controller.Run | src/App.jsx:192-212 | a sequence of events with the captures they fire, in order; stated by `Controller.RunResting`, `Controller.CountdownFiresOnce` and `Controller.NoShotWhileCooling` |
| Controller.StepContract | src/App.jsx:192-212 | one event keeps the machine resting (no countdown during a capture, no zero countdown waiting, a pending cooldown only with the flag up); only the shutter or a tick fires, with that moment's selections, leaving the flag up with its cooldown pending; a disabled shutter, a tick with no countdown and a cooldown that was never scheduled do nothing |
| Controller.RunResting | src/App.jsx:192-212 | any run of events from a resting state stays resting, with at most one capture per event |
| Controller.ReachableResting | src/App.jsx:7-11 | every state reachable from the initial one is resting |
| Controller.ShutterImmediate | src/App.jsx:192-195 | with no delay, mounted elements and a render that does not throw, an enabled shutter press captures immediately, raising the capture flag and scheduling its cooldown |
| Controller.CountdownFiresOnce | src/App.jsx:192-212 | with delay d, a press followed by k ≤ d ticks fires nothing while k < d, leaving countdown d−k; at k = d, given mounted elements and a render that does not throw, exactly one capture has fired, the countdown is null and the cooldown is pending |
| Controller.NoShotWhileCooling | src/App.jsx:362 | while the capture flag is up, no sequence of events without the cooldown fires another capture |
| Controller.StuckWithoutCooldown | src/App.jsx:362 | a capture flag raised with no cooldown pending (line 23 never ran) stays up whatever events follow, so the shutter stays disabled and nothing is ever captured again |
| Controller.EmptyFilmCaptureSticks | src/App.jsx:26-164 | as written, a shutter press on the fresh booth (style 'special90s', no delay) with a mounted video reporting no pixels saves nothing and leaves the flag up with no cooldown; after that no event fires a capture and the shutter stays disabled |

## Left out

- Pixel work. The model records filters, blending, radial gradients, blur, hue rotation and strokes only as calls with their arguments. What they do to pixels is not modelled.
- JPEG encoding. The `toDataURL('image/jpeg', 0.95)` of line 164 is not modelled: no call records it, and the encoded URL is an opaque input to `Gallery.Save`.
- Canvas style setters (`fillStyle`, `font`, `textAlign`, `shadowColor`/`shadowBlur`, `strokeStyle`, `lineWidth`) are passed as arguments of the drawing call they affect. They are not context state. The date is drawn with shadow blur 0 and no offset, which means no shadow, so it carries `NoShadow`.
- A grain mark's position is its anchor point. The 1×1 square it fills may reach one pixel past the photo.
- Camera acquisition and release (`getUserMedia`, stopping tracks) are left out as asynchronous browser I/O. A frame is only its size.
- Real timers and React scheduling become the `Tick` and `CooldownOver` events. Effect cleanup (`clearTimeout`) is implicit: at most one countdown timer is ever pending.
- `Date.now()` ids, `toLocaleDateString` and the encoded image are opaque inputs. The controller emits a `Shot`, and the caller renders it and passes it to `Gallery.Save`. The model does not join these in one state.
- `downloadImage`, the JSX markup, the preview class table `colorFilterClasses` and `tailwind.config.js` are left out. They are presentation and build configuration, and are not consulted at capture time.
- Property lookups through JavaScript's object prototype (an id such as "constructor" in `filterDefinitions`) are not modelled. Only the table's own keys are recipes.
- Geometry.LayoutFor: computes with exact reals, not IEEE doubles (0.05 and 0.20 are inexact in binary). It also ignores the modulo-2^32 wrap of canvas sizes, because only truncation matters at camera resolutions.
- Grain.GrainCount: uses the exact value of `imgSize*imgSize*0.015`. The double-precision product the loop actually compares against is not used.
- Canvas.Step: `drawImage` of a video that has no frame yet draws nothing and does not throw. The abstract slot does not show that nothing was drawn. Only a canvas source with a zero dimension throws here.
- Controller.Step: a throw on the `Tick` path happens inside the countdown effect (line 210). `src/App.jsx` has no error boundary, so React unmounts the whole component, controls and gallery included. The states `Controller.Step` and `Controller.Run` give after such a tick do not exist in the program. The model keeps only that nothing is saved and no cooldown is scheduled.
- Controller.Run: one camera state for a whole run of events. A camera that changes mid-run is modelled only as the separate camera of the later events in `Controller.EmptyFilmCaptureSticks`.
- Controller.Step uses the capture routine as written, not `Controller.GuardedCapture`, which is the corrected half of the third finding.
- Canvas.Step: the photo slot is tracked by orientation and filter chain, not by position. The sub-pixel shift of the as-written mirror (first finding below) is stated by `Capture.MirrorOpsShift`, but it does not show in the slot's state, so the read-backs are modelled as copying the whole photo.

## Findings

| source | as written | input that shows it | evidently intended | confidence | as-written member | corrected member |
|---|---|---|---|---|---|---|
| src/App.jsx:49 | the mirror is translated by `canvas.width - padding`, and `canvas.width` holds the truncated `1.1·imgSize` | a 1×1 frame: the photo spans x ∈ [−0.05, 0.95] and starts off the card. Any side that is not a multiple of 10 (e.g. 1085) pushes the photo into its left border by the dropped fraction, so the read-backs at `(padding, padding)` miss it by the same amount | translate by `imgSize + padding`, so the photo fills [padding, padding + imgSize] | medium; not executed | Geometry.MirrorAsWrittenShift | Geometry.MirrorPlacesPhoto |
| src/App.jsx:162 | the date baseline is `canvas.height - bottomPadding/3`, using the truncated height | a 1×1 frame: the baseline is at 0.93, above the photo's bottom edge at 1.05 | measure from the requested height `1.25·imgSize`, so the baseline is strictly inside the bottom band | low; not executed | Geometry.DateAsWrittenInsidePhoto | Geometry.DateBaseline |
| src/App.jsx:84 | `isCapturing` is raised at line 29 before any size check; in 'special90s' the read-back at line 84 draws the 0×0 card canvas and throws, so `saveFinal` (line 164) and its cooldown (line 23) never run | a mounted video that still reports 0×0 (the camera denied at lines 182-184, or not loaded yet), the initial style 'special90s', timer 0, one shutter press: the flag stays up and the shutter (line 362) is disabled for good | a not-ready guard that returns before raising the flag when the frame has no pixels, as line 27 does for missing elements | medium; not executed | Controller.EmptyFilmCaptureSticks | Controller.GuardedCapture |

=== FILE: canvas.dfy ===
/**
 * The part of a 2D canvas context the capture routine relies on: a current
 * transform, filter and compositing mode, a save/restore stack, and the
 * drawing calls it issues.  Pixels are not modelled; instead the state
 * records every drawing call with the context it was made in, and follows the
 * photo slot's content abstractly: which way round it faces, and the chain of
 * filters its pixels have been drawn through.  A `drawImage` whose image is
 * a canvas with a zero width or height throws an `InvalidStateError` (the
 * usability check of section 4.12.5.1.14 of the HTML Living Standard); the
 * exception leaves the routine, so no later call runs.
 */
module Canvas {
  import opened Styles

  datatype Rgba = Rgba(r: nat, g: nat, b: nat, a: real)
  datatype Paint =
    | Solid(color: Rgba)
    | Radial(cx: real, cy: real, r0: real, r1: real, inner: Rgba, outer: Rgba)
  datatype Rect = Rect(x: real, y: real, w: real, h: real)

  datatype Align = AlignLeft | AlignCenter | AlignRight
  datatype Face = Serif | HomemadeApple
  datatype Slant = Regular | Bold | Italic
  datatype Font = Font(px: real, face: Face, slant: Slant)
  datatype Shadow = NoShadow | Shadow(color: Rgba, blur: real)
  datatype Text = Text(content: string, x: real, y: real, font: Font, align: Align, color: Rgba, shadow: Shadow)

  datatype Composite = SourceOver | OverlayBlend

  /** An axis-aligned affine map from user to device coordinates:
      `(x, y)` goes to `(sx * x + tx, sy * y + ty)`. */
  datatype Transform = Transform(sx: real, sy: real, tx: real, ty: real)

  const Identity: Transform := Transform(1.0, 1.0, 0.0, 0.0)

  function DeviceX(t: Transform, x: real): real { t.sx * x + t.tx }
  function DeviceY(t: Transform, y: real): real { t.sy * y + t.ty }

  /** `translate(dx, dy)`: later coordinates are shifted before the current transform applies. */
  function Translated(t: Transform, dx: real, dy: real): (r: Transform)
    ensures forall x :: DeviceX(r, x) == DeviceX(t, x + dx)
    ensures forall y :: DeviceY(r, y) == DeviceY(t, y + dy)
  {
    Transform(t.sx, t.sy, t.tx + t.sx * dx, t.ty + t.sy * dy)
  }

  /** `scale(kx, ky)`: later coordinates are scaled before the current transform applies. */
  function Scaled(t: Transform, kx: real, ky: real): (r: Transform)
    ensures forall x :: DeviceX(r, x) == DeviceX(t, kx * x)
    ensures forall y :: DeviceY(r, y) == DeviceY(t, ky * y)
  {
    Transform(t.sx * kx, t.sy * ky, t.tx, t.ty)
  }

  /** The drawing state `save()` stores and `restore()` brings back. */
  datatype Ctx = Ctx(transform: Transform, filter: Filter, composite: Composite)

  /** A freshly sized canvas: assigning `canvas.width` resets the context. */
  const Default: Ctx := Ctx(Identity, NoFilter, SourceOver)

  datatype Op =
    | Save
    | Restore
    | Translate(dx: real, dy: real)
    | Scale(kx: real, ky: real)
    | SetFilter(filter: Filter)
    | SetComposite(mode: Composite)
    | FillRect(area: Rect, paint: Paint)
    | StrokeRect(area: Rect, paint: Paint, lineWidth: real)
    | FillText(text: Text)
      /** Draw the crop `src` of the video frame into `dst`. */
    | DrawVideo(src: Rect, dst: Rect)
      /** Make a fresh `side` x `side` scratch canvas (its own context: no
          filter, no transform) and draw the card's pixels in `src` onto it. */
    | CopyToScratch(src: Rect, side: nat)
      /** Draw the scratch canvas at `(x, y)`. */
    | DrawScratch(x: real, y: real)
      /** Draw the card's own pixels in `src` back into `dst`. */
    | DrawSelf(src: Rect, dst: Rect)

  /** Drawing calls that paint over the card without touching the photo's content. */
  predicate IsMark(op: Op)
  {
    op.FillRect? || op.StrokeRect? || op.FillText?
  }

  /** Which way round the photo faces on the card. */
  datatype Orient = Blank | Upright | Mirrored

  function Flip(o: Orient): Orient
  {
    match o
    case Blank => Blank
    case Upright => Mirrored
    case Mirrored => Upright
  }

  /** The orientation picture content of orientation `o` takes when drawn through `t`. */
  function Through(t: Transform, o: Orient): Orient
  {
    if t.sx < 0.0 then Flip(o) else o
  }

  /** Abstract content of a surface: orientation of the photo it holds and the
      filters its pixels have passed through, oldest first. */
  datatype Surface = Surface(orient: Orient, grades: seq<Filter>)

  const Empty: Surface := Surface(Blank, [])

  /** A drawing call on the card, with the context in effect when it was made. */
  datatype Drawn = Drawn(op: Op, ctx: Ctx)

  /** Width and height of a canvas, in whole pixels. */
  datatype Dims = Dims(w: nat, h: nat)

  /** A canvas `drawImage` accepts as its image: neither dimension is zero. */
  predicate Usable(d: Dims)
  {
    d.w > 0 && d.h > 0
  }

  /** The card canvas and the scratch canvas; `thrown` once a call has thrown. */
  datatype State = State(
    ctx: Ctx,
    stack: seq<Ctx>,
    slot: Surface,
    scratch: Surface,
    trace: seq<Drawn>,
    size: Dims,
    scratchSize: Dims,
    thrown: bool)

  /** A canvas just given its size, before any scratch canvas exists. */
  function Sized(d: Dims): State
  {
    State(Default, [], Empty, Empty, [], d, Dims(0, 0), false)
  }

  function Record(st: State, op: Op): State
  {
    st.(trace := st.trace + [Drawn(op, st.ctx)])
  }

  function Step(st: State, op: Op): State
  {
    if st.thrown then st
    else if IsMark(op) then Record(st, op)
    else match op
      case Save => st.(stack := st.stack + [st.ctx])
      case Restore =>
        if st.stack == [] then st
        else st.(ctx := st.stack[|st.stack| - 1], stack := st.stack[..|st.stack| - 1])
      case Translate(dx, dy) => st.(ctx := st.ctx.(transform := Translated(st.ctx.transform, dx, dy)))
      case Scale(kx, ky) => st.(ctx := st.ctx.(transform := Scaled(st.ctx.transform, kx, ky)))
      case SetFilter(f) => st.(ctx := st.ctx.(filter := f))
      case SetComposite(m) => st.(ctx := st.ctx.(composite := m))
      case DrawVideo(_, _) =>
        Record(st, op).(slot := Surface(Through(st.ctx.transform, Upright), [st.ctx.filter]))
      case CopyToScratch(_, side) =>
        if !Usable(st.size) then st.(thrown := true)
        else st.(scratch := st.slot, scratchSize := Dims(side, side))
      case DrawScratch(_, _) =>
        if !Usable(st.scratchSize) then st.(thrown := true)
        else Record(st, op).(slot := Surface(Through(st.ctx.transform, st.scratch.orient), st.scratch.grades + [st.ctx.filter]))
      case DrawSelf(_, _) =>
        if !Usable(st.size) then st.(thrown := true)
        else Record(st, op).(slot := Surface(Through(st.ctx.transform, st.slot.orient), st.slot.grades + [st.ctx.filter]))
      case _ => Record(st, op)
  }

  /** Issuing the calls `ops` in order. */
  function Run(st: State, ops: seq<Op>): State
    decreases |ops|
  {
    if ops == [] then st else Run(Step(st, ops[0]), ops[1..])
  }

  lemma {:induction false} RunAppend(st: State, a: seq<Op>, b: seq<Op>)
    ensures Run(st, a + b) == Run(Run(st, a), b)
    decreases |a|
  {
    if a == [] {
      assert a + b == b;
    } else {
      assert (a + b)[0] == a[0];
      assert (a + b)[1..] == a[1..] + b;
      RunAppend(Step(st, a[0]), a[1..], b);
    }
  }

  /** After a throw no call runs. */
  lemma {:induction false} Halted(st: State, ops: seq<Op>)
    requires st.thrown
    ensures Run(st, ops) == st
    decreases |ops|
  {
    if ops != [] {
      Halted(Step(st, ops[0]), ops[1..]);
    }
  }

  /** Running a suffix of a call list is one step followed by the next suffix. */
  lemma RunFrom(st: State, ops: seq<Op>, i: nat)
    requires i < |ops|
    ensures Run(st, ops[i..]) == Run(Step(st, ops[i]), ops[i + 1..])
  {
    assert ops[i..][0] == ops[i];
    assert ops[i..][1..] == ops[i + 1..];
  }

  /** The drawing calls `ops` recorded in context `ctx`. */
  function Painted(ctx: Ctx, ops: seq<Op>): (d: seq<Drawn>)
    ensures |d| == |ops|
    ensures forall i :: 0 <= i < |ops| ==> d[i] == Drawn(ops[i], ctx)
  {
    seq(|ops|, i requires 0 <= i < |ops| => Drawn(ops[i], ctx))
  }

  /** Marks are recorded in the current context and change nothing else. */
  lemma {:induction false} MarksOnly(st: State, ops: seq<Op>)
    requires !st.thrown
    requires forall i :: 0 <= i < |ops| ==> IsMark(ops[i])
    ensures Run(st, ops) == st.(trace := st.trace + Painted(st.ctx, ops))
    decreases |ops|
  {
    if ops == [] {
      assert st.trace + Painted(st.ctx, ops) == st.trace;
    } else {
      var st' := Step(st, ops[0]);
      assert IsMark(ops[0]);
      assert st' == Record(st, ops[0]);
      assert Run(st, ops) == Run(st', ops[1..]);
      MarksOnly(st', ops[1..]);
      assert Painted(st.ctx, ops) == [Drawn(ops[0], st.ctx)] + Painted(st.ctx, ops[1..]);
      assert st.trace + Painted(st.ctx, ops) == st'.trace + Painted(st.ctx, ops[1..]);
    }
  }

  /** Calls without `save()` or `restore()`. */
  predicate Unbracketed(ops: seq<Op>)
  {
    forall i :: 0 <= i < |ops| ==> !ops[i].Save? && !ops[i].Restore?
  }

  lemma {:induction false} StackUntouched(st: State, ops: seq<Op>)
    requires Unbracketed(ops)
    ensures Run(st, ops).stack == st.stack
    decreases |ops|
  {
    if ops != [] {
      StackUntouched(Step(st, ops[0]), ops[1..]);
    }
  }

  /** `save()`, calls that do not touch the stack, `restore()`: unless a call
      threw, the context is back to what it was, whatever the calls in between set. */
  lemma {:induction false} SaveRestore(st: State, ops: seq<Op>)
    requires Unbracketed(ops)
    ensures var r := Run(st, [Save] + ops + [Restore]);
      !r.thrown ==> r.ctx == st.ctx && r.stack == st.stack
  {
    if st.thrown {
      Halted(st, [Save] + ops + [Restore]);
    } else {
      RunAppend(st, [Save] + ops, [Restore]);
      RunAppend(st, [Save], ops);
      var saved := Run(st, [Save]);
      assert saved.stack == st.stack + [st.ctx];
      StackUntouched(saved, ops);
      var mid := Run(saved, ops);
      assert Run(mid, [Restore]) == Step(mid, Restore);
      assert mid.stack[..|mid.stack| - 1] == st.stack;
    }
  }

  /** The texts of a list of calls, in order. */
  function TextsOf(ops: seq<Op>): seq<Text>
    decreases |ops|
  {
    if ops == [] then []
    else (if ops[0].FillText? then [ops[0].text] else []) + TextsOf(ops[1..])
  }

  lemma {:induction false} TextsOfAppend(a: seq<Op>, b: seq<Op>)
    ensures TextsOf(a + b) == TextsOf(a) + TextsOf(b)
    decreases |a|
  {
    if a == [] {
      assert a + b == b;
    } else {
      var head := if a[0].FillText? then [a[0].text] else [];
      assert (a + b)[0] == a[0];
      assert (a + b)[1..] == a[1..] + b;
      assert TextsOf(a + b) == head + TextsOf(a[1..] + b);
      TextsOfAppend(a[1..], b);
      assert head + (TextsOf(a[1..]) + TextsOf(b)) == (head + TextsOf(a[1..])) + TextsOf(b);
    }
  }

  /** The calls a trace recorded, without their contexts. */
  function OpsOf(trace: seq<Drawn>): seq<Op>
  {
    seq(|trace|, i requires 0 <= i < |trace| => trace[i].op)
  }

  /** Texts drawn on the card, in order. */
  function TextsDrawn(trace: seq<Drawn>): seq<Text>
  {
    TextsOf(OpsOf(trace))
  }

  /** A single recorded call contributes its text, if it drew one. */
  lemma TextsDrawnOne(d: Drawn)
    ensures TextsDrawn([d]) == if d.op.FillText? then [d.op.text] else []
  {
    var head := if d.op.FillText? then [d.op.text] else [];
    assert OpsOf([d]) == [d.op];
    assert [d.op][1..] == [];
    assert TextsOf([d.op]) == head + TextsOf([]);
  }

  lemma TextsAppend(a: seq<Drawn>, b: seq<Drawn>)
    ensures TextsDrawn(a + b) == TextsDrawn(a) + TextsDrawn(b)
  {
    assert OpsOf(a + b) == OpsOf(a) + OpsOf(b);
    TextsOfAppend(OpsOf(a), OpsOf(b));
  }

  lemma TextsPainted(ctx: Ctx, ops: seq<Op>)
    ensures TextsDrawn(Painted(ctx, ops)) == TextsOf(ops)
  {
    assert OpsOf(Painted(ctx, ops)) == ops;
  }

  predicate TextFree(ops: seq<Op>)
  {
    forall i :: 0 <= i < |ops| ==> !ops[i].FillText?
  }

  /** Calls without text add no text to the card. */
  lemma {:induction false} NoTextAdded(st: State, ops: seq<Op>)
    requires TextFree(ops)
    ensures TextsDrawn(Run(st, ops).trace) == TextsDrawn(st.trace)
    decreases |ops|
  {
    if ops != [] {
      var st' := Step(st, ops[0]);
      assert st'.trace == st.trace || st'.trace == st.trace + [Drawn(ops[0], st.ctx)];
      TextsAppend(st.trace, [Drawn(ops[0], st.ctx)]);
      TextsDrawnOne(Drawn(ops[0], st.ctx));
      assert TextsDrawn(st'.trace) == TextsDrawn(st.trace);
      NoTextAdded(st', ops[1..]);
    }
  }

  /** Every text in `trace` was drawn in context `ctx`. */
  predicate TextsIn(trace: seq<Drawn>, ctx: Ctx)
  {
    forall i :: 0 <= i < |trace| && trace[i].op.FillText? ==> trace[i].ctx == ctx
  }

  lemma {:induction false} TextsStayIn(st: State, ops: seq<Op>, ctx: Ctx)
    requires TextsIn(st.trace, ctx)
    requires TextFree(ops)
    ensures TextsIn(Run(st, ops).trace, ctx)
    decreases |ops|
  {
    if ops != [] {
      var st' := Step(st, ops[0]);
      assert st'.trace == st.trace || st'.trace == st.trace + [Drawn(ops[0], st.ctx)];
      TextsStayIn(st', ops[1..], ctx);
    }
  }
}

=== FILE: capture.dfy ===
/**
 * The capture routine `executeCapture` (src/App.jsx:26-165) as the list of
 * canvas calls it issues for one frame, and what those calls leave on the card.
 */
module Capture {
  import opened Wrappers
  import opened Styles
  import opened Geometry
  import opened Grain
  import opened Canvas
  import opened Overlays

  const White: Rgba := Rgba(255, 255, 255, 1.0)
  /** `#94a3b8`, Tailwind's slate-400. */
  const Slate400: Rgba := Rgba(148, 163, 184, 1.0)

  /** The photo slot in the coordinates the photo is drawn in. */
  function Slot(l: Layout): Rect
  {
    Rect(0.0, 0.0, l.imgSize as real, l.imgSize as real)
  }

  /** The photo slot's pixels on the card, read back by the colour-cast and softening stages. */
  function SlotOnCard(l: Layout): Rect
  {
    Rect(l.padding, l.padding, l.imgSize as real, l.imgSize as real)
  }

  /** The card canvas as sized at src/App.jsx:39-40. */
  function CardSize(l: Layout): Dims
  {
    Dims(l.canvasWidth, l.canvasHeight)
  }

  /** The card canvas of a capture of frame `v`, just sized. */
  function Card(v: VideoSize): State
  {
    Sized(CardSize(LayoutOf(v)))
  }

  /** The captures whose canvas calls throw: the film pipeline's read-back of
      the card (src/App.jsx:84) finds a 0x0 canvas when the frame has no pixels. */
  predicate Throws(v: VideoSize, style: string)
  {
    style == Special90s && ImgSize(v) == 0
  }

  /** Translate by `canvas.width - padding`, then flip horizontally
      (src/App.jsx:49-50).  The width read back is the truncated one. */
  function MirrorOps(l: Layout): seq<Op>
  {
    [Translate(MirrorOffsetAsWritten(l), l.padding), Scale(-1.0, 1.0)]
  }

  /** The transform the photo stage draws under, as the routine sets it up. */
  function MirrorTransform(l: Layout): Transform
  {
    Transform(-1.0, 1.0, MirrorOffsetAsWritten(l), l.padding)
  }

  /** The transform that puts the mirrored photo exactly on the card's photo
      area: translation by the card width asked for, not the truncated one. */
  function IntendedMirror(l: Layout): Transform
  {
    Transform(-1.0, 1.0, MirrorOffset(l), l.padding)
  }

  /** The mirror calls issued on a fresh context leave `MirrorTransform`.  It
      draws every point of the slot as far left of where `IntendedMirror` would
      as the canvas width dropped in truncation, less than one pixel; the two
      agree exactly when the side is a multiple of 10. */
  lemma {:induction false} MirrorOpsShift(l: Layout)
    requires Derived(l)
    ensures Scaled(Translated(Identity, MirrorOffsetAsWritten(l), l.padding), -1.0, 1.0) == MirrorTransform(l)
    ensures 0.0 <= l.cardWidth - l.canvasWidth as real < 1.0
    ensures forall x :: DeviceX(MirrorTransform(l), x) == DeviceX(IntendedMirror(l), x) - (l.cardWidth - l.canvasWidth as real)
    ensures forall y :: DeviceY(MirrorTransform(l), y) == DeviceY(IntendedMirror(l), y)
    ensures forall x :: DeviceX(MirrorTransform(l), x) == MirroredX(MirrorOffsetAsWritten(l), x)
    ensures MirrorTransform(l) == IntendedMirror(l) <==> l.imgSize % 10 == 0
  {
    MirrorAsWrittenShift(l.imgSize);
  }

  /** The intended transform maps the slot onto the card's photo area with left
      and right swapped: exactly the area the read-back stages copy from.  Its
      horizontal map is `MirroredX` with the intended offset, so the placement
      is the one `Geometry.MirrorPlacesPhoto` states on one axis. */
  lemma IntendedMirrorPlacesPhoto(l: Layout)
    requires Derived(l)
    ensures forall x :: DeviceX(IntendedMirror(l), x) == MirroredX(MirrorOffset(l), x)
    ensures var t := IntendedMirror(l); var s := l.imgSize as real;
      DeviceX(t, 0.0) == l.padding + s && DeviceX(t, s) == l.padding
      && DeviceY(t, 0.0) == l.padding && DeviceY(t, s) == l.padding + s
    ensures var t := IntendedMirror(l); var r := SlotOnCard(l);
      DeviceX(t, l.imgSize as real) == r.x && DeviceX(t, 0.0) == r.x + r.w
      && DeviceY(t, 0.0) == r.y && DeviceY(t, l.imgSize as real) == r.y + r.h
  {
    MirrorPlacesPhoto(l.imgSize, 0.0, l.imgSize as real);
  }

  /** A grain mark inside the square lands on the card's photo area under the
      intended transform; as written it lands at most one pixel further left. */
  lemma GrainLandsOnPhoto(l: Layout, m: Mark)
    requires Derived(l)
    requires 0.0 <= m.x < l.imgSize as real && 0.0 <= m.y < l.imgSize as real
    ensures var t := IntendedMirror(l);
      l.padding < DeviceX(t, m.x) <= l.padding + l.imgSize as real
      && l.padding <= DeviceY(t, m.y) < l.padding + l.imgSize as real
    ensures var t := MirrorTransform(l);
      l.padding - 1.0 < DeviceX(t, m.x) <= l.padding + l.imgSize as real
      && l.padding <= DeviceY(t, m.y) < l.padding + l.imgSize as real
  {
  }

  /** Stages 1 and 2 of the film pipeline: base grade, then the central flash
      blended in overlay mode (src/App.jsx:58-69). */
  function FilmHead(v: VideoSize, l: Layout): seq<Op>
  {
    var s := l.imgSize as real;
    var c := CropOf(v);
    [ SetFilter(BaseGrade),
      DrawVideo(Rect(c.x, c.y, s, s), Slot(l)),
      SetComposite(OverlayBlend),
      FillRect(Slot(l), Radial(s / 2.0, s / 2.0, 0.0, s / 2.0, Rgba(255, 255, 255, 0.25), Rgba(255, 255, 255, 0.0))),
      SetComposite(SourceOver) ]
  }

  /** Stage 3: one 1x1 white square per grain mark (src/App.jsx:72-78). */
  function GrainOps(marks: seq<Mark>): (ops: seq<Op>)
    ensures |ops| == |marks|
    ensures forall i :: 0 <= i < |ops| ==> IsMark(ops[i]) && !ops[i].FillText?
  {
    seq(|marks|, i requires 0 <= i < |marks| =>
      FillRect(Rect(marks[i].x, marks[i].y, 1.0, 1.0), Solid(Rgba(255, 255, 255, marks[i].alpha))))
  }

  /** Stages 4 to 7: colour cast through a scratch canvas, vignette, softening
      by redrawing the card onto itself, edge glow (src/App.jsx:80-103). */
  function FilmTail(l: Layout): seq<Op>
  {
    var s := l.imgSize as real;
    [ CopyToScratch(SlotOnCard(l), l.imgSize),
      SetFilter(ColorCast),
      DrawScratch(0.0, 0.0),
      FillRect(Slot(l), Radial(s / 2.0, s / 2.0, s * 0.35, s * 0.75, Rgba(0, 0, 0, 0.0), Rgba(0, 0, 0, 0.45))),
      SetFilter(Softening),
      DrawSelf(SlotOnCard(l), Slot(l)),
      SetFilter(NoFilter),
      StrokeRect(Slot(l), Solid(Rgba(255, 255, 255, 0.12)), 10.0) ]
  }

  /** The photo stage for a style (src/App.jsx:55-125). */
  function PhotoOps(v: VideoSize, style: string, marks: seq<Mark>): seq<Op>
  {
    var l := LayoutOf(v);
    var s := l.imgSize as real;
    var c := CropOf(v);
    var draw := DrawVideo(Rect(c.x, c.y, s, s), Slot(l));
    match Dispatch(style)
    case FilmPipeline => FilmHead(v, l) + GrainOps(marks) + FilmTail(l)
    case SinglePass(None) => [draw]
    case SinglePass(Some(f)) => [SetFilter(f), draw]
  }

  /** The context the photo stage starts from: mirrored, no filter, plain blending. */
  function PhotoCtx(l: Layout): Ctx
  {
    Ctx(MirrorTransform(l), NoFilter, SourceOver)
  }

  lemma FilmHeadEffect(st: State, v: VideoSize)
    requires !st.thrown && st.ctx == PhotoCtx(LayoutOf(v))
    ensures var r := Run(st, FilmHead(v, LayoutOf(v)));
      !r.thrown && r.size == st.size
      && r.ctx == st.ctx.(filter := BaseGrade) && r.stack == st.stack
      && r.slot == Surface(Mirrored, [BaseGrade]) && r.scratch == st.scratch
  {
    var ops := FilmHead(v, LayoutOf(v));
    var s1 := Step(st, ops[0]);
    var s2 := Step(s1, ops[1]);
    var s3 := Step(s2, ops[2]);
    var s4 := Step(s3, ops[3]);
    var s5 := Step(s4, ops[4]);
    assert ops[0..] == ops;
    RunFrom(st, ops, 0);
    RunFrom(s1, ops, 1);
    RunFrom(s2, ops, 2);
    RunFrom(s3, ops, 3);
    RunFrom(s4, ops, 4);
    assert ops[5..] == [];
  }

  lemma FilmTailEffect(st: State, l: Layout)
    requires !st.thrown && Usable(st.size) && l.imgSize > 0
    requires st.ctx == PhotoCtx(l).(filter := BaseGrade)
    requires st.slot == Surface(Mirrored, [BaseGrade])
    ensures var r := Run(st, FilmTail(l));
      !r.thrown && r.ctx == PhotoCtx(l) && r.stack == st.stack
      && r.slot == Surface(Mirrored, [BaseGrade, ColorCast, Softening])
  {
    var ops := FilmTail(l);
    var s1 := Step(st, ops[0]);
    var s2 := Step(s1, ops[1]);
    var s3 := Step(s2, ops[2]);
    assert s3.slot == Surface(Upright, [BaseGrade, ColorCast]);
    var s4 := Step(s3, ops[3]);
    var s5 := Step(s4, ops[4]);
    var s6 := Step(s5, ops[5]);
    var s7 := Step(s6, ops[6]);
    var s8 := Step(s7, ops[7]);
    assert ops[0..] == ops;
    RunFrom(st, ops, 0);
    RunFrom(s1, ops, 1);
    RunFrom(s2, ops, 2);
    RunFrom(s3, ops, 3);
    RunFrom(s4, ops, 4);
    RunFrom(s5, ops, 5);
    RunFrom(s6, ops, 6);
    RunFrom(s7, ops, 7);
    assert ops[8..] == [];
  }

  /** On an empty card the first read-back throws and nothing after it runs. */
  lemma FilmTailThrows(st: State, l: Layout)
    requires !st.thrown && !Usable(st.size)
    ensures Run(st, FilmTail(l)) == st.(thrown := true)
  {
    var ops := FilmTail(l);
    assert ops[0..] == ops;
    RunFrom(st, ops, 0);
    Halted(st.(thrown := true), ops[1..]);
  }

  /** The photo stage makes no text and does not touch the save/restore stack. */
  lemma PhotoOpsPlain(v: VideoSize, style: string, marks: seq<Mark>)
    ensures TextFree(PhotoOps(v, style, marks)) && Unbracketed(PhotoOps(v, style, marks))
  {
    var l := LayoutOf(v);
    var ops := PhotoOps(v, style, marks);
    if style == Special90s {
      var head, grain, tail := FilmHead(v, l), GrainOps(marks), FilmTail(l);
      assert ops == head + grain + tail;
      forall i | 0 <= i < |ops|
        ensures !ops[i].FillText? && !ops[i].Save? && !ops[i].Restore?
      {
        if i >= |head| + |grain| {
          assert ops[i] == tail[i - |head| - |grain|];
        } else if i >= |head| {
          assert ops[i] == grain[i - |head|];
        }
      }
    }
  }

  /** The film pipeline turns the photo round twice through its read-backs, so
      it ends mirrored, drawn through base grade, colour cast and softening in
      that order, each on top of the previous stages' pixels. */
  lemma FilmStage(st: State, v: VideoSize, marks: seq<Mark>)
    requires !st.thrown && st.ctx == PhotoCtx(LayoutOf(v)) && st.size == CardSize(LayoutOf(v))
    ensures var r := Run(st, PhotoOps(v, Special90s, marks));
      && (r.thrown <==> ImgSize(v) == 0)
      && (!r.thrown ==>
            r.ctx == st.ctx && r.stack == st.stack
            && r.slot == Surface(Mirrored, [BaseGrade, ColorCast, Softening]))
  {
    var l := LayoutOf(v);
    var head, grain, tail := FilmHead(v, l), GrainOps(marks), FilmTail(l);
    assert PhotoOps(v, Special90s, marks) == head + grain + tail;
    RunAppend(st, head + grain, tail);
    RunAppend(st, head, grain);
    FilmHeadEffect(st, v);
    var a := Run(st, head);
    MarksOnly(a, grain);
    if ImgSize(v) == 0 {
      FilmTailThrows(Run(a, grain), l);
    } else {
      FilmTailEffect(Run(a, grain), l);
    }
  }

  /** The photo stage, whichever branch the style selects, keeps the mirror
      transform and the stack, and leaves the photo mirrored and drawn through
      the style's filters. */
  lemma PhotoStage(st: State, v: VideoSize, style: string, marks: seq<Mark>)
    requires !st.thrown && st.ctx == PhotoCtx(LayoutOf(v)) && st.size == CardSize(LayoutOf(v))
    ensures var r := Run(st, PhotoOps(v, style, marks));
      && (r.thrown <==> Throws(v, style))
      && (!r.thrown ==>
            r.ctx.transform == st.ctx.transform && r.stack == st.stack
            && r.slot.orient == Mirrored
            && r.slot.grades == (if style == Special90s then [BaseGrade, ColorCast, Softening]
                                 else [PhotoFilter(style, NoFilter).value]))
  {
    var ops := PhotoOps(v, style, marks);
    if style == Special90s {
      FilmStage(st, v, marks);
    } else if style == Normal {
      var s1 := Step(st, ops[0]);
      assert ops[0..] == ops;
      RunFrom(st, ops, 0);
      assert ops[1..] == [];
    } else {
      var s1 := Step(st, ops[0]);
      var s2 := Step(s1, ops[1]);
      assert ops[0..] == ops;
      RunFrom(st, ops, 0);
      RunFrom(s1, ops, 1);
      assert ops[2..] == [];
    }
  }

  /** The "ABSOLUTE" / "CINEMA" captions (src/App.jsx:130-145): centred on the
      photo, the small line above the large one, both inside the photo area. */
  function CinemaTexts(l: Layout): (t: seq<Text>)
    requires Derived(l)
    ensures |t| == 2 && t[0].content == "ABSOLUTE" && t[1].content == "CINEMA"
    ensures forall i :: 0 <= i < |t| ==>
      && t[i].align == AlignCenter
      && t[i].x == l.padding + l.imgSize as real / 2.0
      && l.padding <= t[i].y <= l.padding + l.imgSize as real
    ensures l.imgSize > 0 ==> t[0].y < t[1].y && t[0].font.px < t[1].font.px
  {
    var s := l.imgSize as real;
    var shadow := Shadow(Rgba(0, 0, 0, 0.9), 20.0);
    var x := l.padding + s / 2.0;
    [ Text("ABSOLUTE", x, l.padding + s * 0.84, Font(s * 0.05, Serif, Bold), AlignCenter, White, shadow),
      Text("CINEMA", x, l.padding + s * 0.95, Font(s * 0.14, Serif, Bold), AlignCenter, White, shadow) ]
  }

  /** The "chill homie!" caption (src/App.jsx:147-155), right-aligned 20 pixels
      in from the photo's bottom-right corner; the 20-pixel inset does not scale,
      so the anchor lies on the photo only when its side is at least 20. */
  function ChillText(l: Layout): (t: Text)
    requires Derived(l)
    ensures t.content == "chill homie!" && t.align == AlignRight
    ensures t.x == t.y
    ensures t.x <= l.padding + l.imgSize as real
    ensures l.padding <= t.x <==> l.imgSize >= 20
  {
    var s := l.imgSize as real;
    var corner := l.padding + s - 20.0;
    Text("chill homie!", corner, corner, Font(s * 0.07, HomemadeApple, Italic), AlignRight, White,
         Shadow(Rgba(0, 0, 0, 0.5), 10.0))
  }

  /** The overlay captions of the selected frame: the two `if`s of the source
      test the same single value, so at most one frame's captions are drawn. */
  function OverlayTexts(l: Layout, o: Overlay): (t: seq<Text>)
    requires Derived(l)
    ensures o == NoOverlay <==> t == []
    ensures o == Cinema <==> t == CinemaTexts(l)
    ensures o == Chill <==> t == [ChillText(l)]
    ensures forall i :: 0 <= i < |t| && t[i].content == "chill homie!" ==> o == Chill
    ensures forall i :: 0 <= i < |t| && t[i].content in {"ABSOLUTE", "CINEMA"} ==> o == Cinema
  {
    (if o == Cinema then CinemaTexts(l) else []) + (if o == Chill then [ChillText(l)] else [])
  }

  /** The date in the bottom band (src/App.jsx:157-162).  Its baseline is
      measured from the truncated canvas height, so it sits above the intended
      one by the height truncation dropped; it stays on the canvas, and below
      the photo from a side of 4 on. */
  function DateText(l: Layout, date: string): (t: Text)
    requires Derived(l)
    ensures t.content == date && t.align == AlignLeft && t.x == l.padding + 15.0
    ensures t.y == DateBaseline(l) - (l.cardHeight - l.canvasHeight as real)
    ensures t.y <= l.canvasHeight as real
    ensures l.imgSize >= 4 ==> l.padding + l.imgSize as real < t.y
  {
    Text(date, l.padding + 15.0, DateBaselineAsWritten(l), Font(l.imgSize as real * 0.045, HomemadeApple, Regular),
         AlignLeft, Slate400, NoShadow)
  }

  function TextOps(texts: seq<Text>): (ops: seq<Op>)
    ensures |ops| == |texts|
    ensures forall i :: 0 <= i < |ops| ==> IsMark(ops[i]) && ops[i] == FillText(texts[i])
  {
    seq(|texts|, i requires 0 <= i < |texts| => FillText(texts[i]))
  }

  lemma {:induction false} TextOpsTexts(texts: seq<Text>)
    ensures TextsOf(TextOps(texts)) == texts
    decreases |texts|
  {
    if texts != [] {
      assert TextOps(texts)[1..] == TextOps(texts[1..]);
      TextOpsTexts(texts[1..]);
    }
  }

  /** What one render needs from `Math.random()`: three values in [0, 1) per
      grain mark, for the film pipeline only. */
  predicate EnoughRandomness(v: VideoSize, style: string, rand: seq<real>)
  {
    style == Special90s ==> |rand| >= 3 * GrainCount(ImgSize(v)) && UnitInterval(rand)
  }

  function Marks(v: VideoSize, style: string, rand: seq<real>): seq<Mark>
    requires EnoughRandomness(v, style, rand)
  {
    if style == Special90s then Scatter(ImgSize(v), rand) else []
  }

  /** White card, then the mirrored photo between `save()` and `restore()`. */
  function PhotoPart(v: VideoSize, style: string, marks: seq<Mark>): seq<Op>
  {
    var l := LayoutOf(v);
    [FillRect(Rect(0.0, 0.0, l.canvasWidth as real, l.canvasHeight as real), Solid(White))]
      + ([Save] + (MirrorOps(l) + PhotoOps(v, style, marks)) + [Restore])
  }

  /** Every canvas call of `executeCapture` for frame size `v`, style `style`,
      overlay `o` and the formatted date `date`, in order. */
  function CaptureOps(v: VideoSize, style: string, o: Overlay, date: string, rand: seq<real>): seq<Op>
    requires EnoughRandomness(v, style, rand)
  {
    var l := LayoutOf(v);
    PhotoPart(v, style, Marks(v, style, rand)) + [SetFilter(NoFilter)]
      + TextOps(OverlayTexts(l, o) + [DateText(l, date)])
  }

  /** The card `executeCapture` leaves on a freshly sized canvas, or the state
      in which its calls threw. */
  function Render(v: VideoSize, style: string, o: Overlay, date: string, rand: seq<real>): State
    requires EnoughRandomness(v, style, rand)
  {
    Run(Card(v), CaptureOps(v, style, o, date, rand))
  }

  lemma MirrorEffect(st: State, l: Layout)
    requires !st.thrown && st.ctx == Default
    ensures Run(st, MirrorOps(l)) == st.(ctx := PhotoCtx(l))
  {
    var mops := MirrorOps(l);
    RunFrom(st, mops, 0);
    RunFrom(Step(st, mops[0]), mops, 1);
    assert mops[0..] == mops && mops[2..] == [];
  }

  /** The calls between `save()` and `restore()`. */
  function Inner(v: VideoSize, style: string, marks: seq<Mark>): seq<Op>
  {
    MirrorOps(LayoutOf(v)) + PhotoOps(v, style, marks)
  }

  lemma InnerEffect(st: State, v: VideoSize, style: string, marks: seq<Mark>)
    requires !st.thrown && st.ctx == Default && st.size == CardSize(LayoutOf(v))
    ensures TextFree(Inner(v, style, marks)) && Unbracketed(Inner(v, style, marks))
    ensures var r := Run(st, Inner(v, style, marks));
      && (r.thrown <==> Throws(v, style))
      && (!r.thrown ==>
            r.stack == st.stack
            && r.slot.orient == Mirrored
            && r.slot.grades == (if style == Special90s then [BaseGrade, ColorCast, Softening]
                                 else [PhotoFilter(style, NoFilter).value]))
  {
    var l := LayoutOf(v);
    var photo := PhotoOps(v, style, marks);
    var inner := Inner(v, style, marks);
    RunAppend(st, MirrorOps(l), photo);
    MirrorEffect(st, l);
    PhotoStage(st.(ctx := PhotoCtx(l)), v, style, marks);
    PhotoOpsPlain(v, style, marks);
    forall i | 0 <= i < |inner|
      ensures !inner[i].FillText? && !inner[i].Save? && !inner[i].Restore?
    {
      if i >= 2 { assert inner[i] == photo[i - 2]; }
    }
  }

  lemma BracketEffect(st: State, v: VideoSize, style: string, marks: seq<Mark>)
    requires !st.thrown && st.ctx == Default && st.size == CardSize(LayoutOf(v))
    ensures var r := Run(st, [Save] + Inner(v, style, marks) + [Restore]);
      && (r.thrown <==> Throws(v, style))
      && (!r.thrown ==>
            r.ctx == Default && r.stack == st.stack
            && r.slot.orient == Mirrored
            && r.slot.grades == (if style == Special90s then [BaseGrade, ColorCast, Softening]
                                 else [PhotoFilter(style, NoFilter).value]))
      && TextsDrawn(r.trace) == TextsDrawn(st.trace)
      && (TextsIn(st.trace, Default) ==> TextsIn(r.trace, Default))
  {
    var inner := Inner(v, style, marks);
    var ops := [Save] + inner + [Restore];
    RunAppend(st, [Save] + inner, [Restore]);
    RunAppend(st, [Save], inner);
    var saved := Run(st, [Save]);
    assert saved == st.(stack := st.stack + [st.ctx]);
    InnerEffect(saved, v, style, marks);
    SaveRestore(st, inner);
    var mid := Run(saved, inner);
    assert Run(mid, [Restore]).slot == mid.slot;
    assert Run(mid, [Restore]).thrown == mid.thrown;
    assert TextFree(ops) by {
      forall i | 0 <= i < |ops| ensures !ops[i].FillText? {
        if 0 < i < |ops| - 1 { assert ops[i] == inner[i - 1]; }
      }
    }
    NoTextAdded(st, ops);
    if TextsIn(st.trace, Default) {
      TextsStayIn(st, ops, Default);
    }
  }

  lemma PhotoPartEffect(v: VideoSize, style: string, marks: seq<Mark>)
    ensures var r := Run(Card(v), PhotoPart(v, style, marks));
      && (r.thrown <==> Throws(v, style))
      && (!r.thrown ==>
            r.ctx == Default && r.stack == []
            && r.slot.orient == Mirrored
            && r.slot.grades == (if style == Special90s then [BaseGrade, ColorCast, Softening]
                                 else [PhotoFilter(style, NoFilter).value]))
      && TextsDrawn(r.trace) == [] && TextsIn(r.trace, Default)
  {
    var l := LayoutOf(v);
    var bg := [FillRect(Rect(0.0, 0.0, l.canvasWidth as real, l.canvasHeight as real), Solid(White))];
    var bracket := [Save] + Inner(v, style, marks) + [Restore];
    assert PhotoPart(v, style, marks) == bg + bracket;
    RunAppend(Card(v), bg, bracket);
    MarksOnly(Card(v), bg);
    var st1 := Run(Card(v), bg);
    assert st1.trace == [Drawn(bg[0], Default)];
    TextsDrawnOne(Drawn(bg[0], Default));
    BracketEffect(st1, v, style, marks);
  }

  /** The captions of one capture: the selected overlay's, then the date. */
  function Captions(v: VideoSize, o: Overlay, date: string): seq<Text>
  {
    OverlayTexts(LayoutOf(v), o) + [DateText(LayoutOf(v), date)]
  }

  /** A capture is its photo part, then the captions drawn in the default
      context; if the photo part threw, nothing after it runs. */
  lemma RenderSplit(v: VideoSize, style: string, o: Overlay, date: string, rand: seq<real>)
    requires EnoughRandomness(v, style, rand)
    ensures var a := Run(Card(v), PhotoPart(v, style, Marks(v, style, rand)));
      && (a.thrown ==> Render(v, style, o, date, rand) == a)
      && (!a.thrown ==>
            a.ctx == Default
            && Render(v, style, o, date, rand) == a.(trace := a.trace + Painted(Default, TextOps(Captions(v, o, date)))))
  {
    var photo := PhotoPart(v, style, Marks(v, style, rand));
    var tops := TextOps(Captions(v, o, date));
    assert CaptureOps(v, style, o, date, rand) == photo + [SetFilter(NoFilter)] + tops;
    RunAppend(Card(v), photo + [SetFilter(NoFilter)], tops);
    RunAppend(Card(v), photo, [SetFilter(NoFilter)]);
    PhotoPartEffect(v, style, Marks(v, style, rand));
    var a := Run(Card(v), photo);
    assert Run(a, [SetFilter(NoFilter)]) == Step(a, SetFilter(NoFilter));
    if a.thrown {
      Halted(a, tops);
    } else {
      assert Step(a, SetFilter(NoFilter)) == a;
      MarksOnly(a, tops);
    }
  }

  /** What one capture leaves on the card, for every frame size, style and
      overlay.  The calls throw exactly for the film style on a frame with no
      pixels.  Otherwise the context is back to its defaults (so the filter is
      'none' whichever branch ran), and the photo faces mirrored and carries
      exactly the style's filters. */
  lemma RenderPhoto(v: VideoSize, style: string, o: Overlay, date: string, rand: seq<real>)
    requires EnoughRandomness(v, style, rand)
    ensures var r := Render(v, style, o, date, rand);
      && (r.thrown <==> style == Special90s && ImgSize(v) == 0)
      && (!r.thrown ==>
            && r.ctx == Default && r.stack == []
            && r.slot.orient == Mirrored
            && (style == Special90s ==> r.slot.grades == [BaseGrade, ColorCast, Softening])
            && (style == Normal ==> r.slot.grades == [NoFilter])
            && (style != Special90s && style != Normal ==> r.slot.grades == [Lookup(style)]))
  {
    RenderSplit(v, style, o, date, rand);
    PhotoPartEffect(v, style, Marks(v, style, rand));
  }

  /** A black-and-white capture leaves the photo mirrored and drawn once
      through the bw recipe, whose first step removes all colour. */
  lemma BlackAndWhiteRender(v: VideoSize, o: Overlay, date: string, rand: seq<real>)
    requires EnoughRandomness(v, "bw", rand)
    ensures var r := Render(v, "bw", o, date, rand);
      !r.thrown && r.slot == Surface(Mirrored, [Chain(FilterTable["bw"])])
      && FilterTable["bw"][0] == Grayscale(1.0)
  {
    RenderPhoto(v, "bw", o, date, rand);
  }

  /** The only texts on the card are the selected overlay's captions followed
      by the date, all drawn unmirrored and unfiltered; a capture whose calls
      threw draws no text at all. */
  lemma RenderTexts(v: VideoSize, style: string, o: Overlay, date: string, rand: seq<real>)
    requires EnoughRandomness(v, style, rand)
    ensures var r := Render(v, style, o, date, rand);
      && (!r.thrown ==> TextsDrawn(r.trace) == Captions(v, o, date))
      && (r.thrown ==> TextsDrawn(r.trace) == [])
      && TextsIn(r.trace, Default)
  {
    RenderSplit(v, style, o, date, rand);
    PhotoPartEffect(v, style, Marks(v, style, rand));
    var a := Run(Card(v), PhotoPart(v, style, Marks(v, style, rand)));
    if !a.thrown {
      var texts := Captions(v, o, date);
      var tops := TextOps(texts);
      var painted := Painted(Default, tops);
      var r := Render(v, style, o, date, rand);
      TextsAppend(a.trace, painted);
      TextsPainted(Default, tops);
      TextOpsTexts(texts);
      forall i | 0 <= i < |r.trace| && r.trace[i].op.FillText?
        ensures r.trace[i].ctx == Default
      {
        if i >= |a.trace| {
          assert r.trace[i] == painted[i - |a.trace|];
        }
      }
    }
  }

  /** Only the grain stage reads `Math.random()`: every other style renders the
      same calls from the same inputs. */
  lemma RenderDeterministicOutsideFilm(v: VideoSize, style: string, o: Overlay, date: string, rand: seq<real>, rand': seq<real>)
    requires style != Special90s
    ensures CaptureOps(v, style, o, date, rand) == CaptureOps(v, style, o, date, rand')
  {
  }
}

=== FILE: controller.dfy ===
/**
 * The shutter controller (src/App.jsx:7-11, 192-212, 353-370): selections,
 * the countdown and the capture flag as a discrete state machine.  Each
 * one-second `setTimeout` of the countdown becomes a `Tick`, the 500 ms
 * `setTimeout` of `saveFinal` becomes `CooldownOver`, and React's effect on
 * `countdown` runs right after the transition that changed it.
 */
module Controller {
  import opened Wrappers
  import opened Overlays
  import opened Geometry
  import Capture

  /** The component's state; `countdown == None` is React's `null`, and
      `cooling` records that the cooldown timeout of `saveFinal` is pending. */
  datatype Booth = Booth(
    style: string,
    overlay: Overlay,
    delay: nat,
    countdown: Option<nat>,
    capturing: bool,
    cooling: bool)

  /** The `useState` initial values (src/App.jsx:7-11); no timeout is pending. */
  const Initial: Booth := Booth("special90s", NoOverlay, 0, None, false, false)

  /** What `executeCapture` finds: whether the video and canvas elements are
      mounted, and the size of the frame the video currently reports. */
  datatype Camera = Camera(mounted: bool, frame: VideoSize)

  datatype Event =
    | PickStyle(id: string)
    | PickDelay(seconds: nat)
    | ToggleCinemaFrame
    | ToggleChillFrame
    | Shutter
    | Tick
    | CooldownOver

  /** A capture the routine starts, with the style and overlay it renders. */
  datatype Shot = Shot(style: string, overlay: Overlay)

  /** One transition: the new state and the capture it fired, if any. */
  datatype Outcome = Outcome(booth: Booth, shot: Option<Shot>)

  /** `disabled={isCapturing || countdown !== null}` (src/App.jsx:362). */
  predicate ShutterEnabled(b: Booth)
  {
    !b.capturing && b.countdown.None?
  }

  /** `executeCapture` as the controller sees it (src/App.jsx:26-29, 84, 164, 23):
      without the video and canvas elements it returns at once.  Otherwise it
      raises the capture flag and renders with the current selections; when
      the render completes it saves the card and schedules the cooldown that
      lowers the flag, and when the render throws neither happens. */
  function ExecuteCapture(b: Booth, cam: Camera): (r: Outcome)
    ensures r.shot.Some? <==> cam.mounted && !Capture.Throws(cam.frame, b.style)
    ensures r.shot.Some? ==> r.shot.value == Shot(b.style, b.overlay)
    ensures r.booth.capturing <==> cam.mounted || b.capturing
    ensures r.booth.cooling <==> r.shot.Some? || b.cooling
    ensures r.booth.(capturing := b.capturing, cooling := b.cooling) == b
  {
    if !cam.mounted then Outcome(b, None)
    else if Capture.Throws(cam.frame, b.style) then Outcome(b.(capturing := true), None)
    else Outcome(b.(capturing := true, cooling := true), Some(Shot(b.style, b.overlay)))
  }

  /** The capture flag is only ever up with a cooldown on its way to lower it. */
  predicate Released(b: Booth)
  {
    b.capturing ==> b.cooling
  }

  /** `executeCapture` with a not-ready guard: a frame with no pixels returns
      before the flag is raised, like the missing elements do.  The render it
      starts never throws, and the flag is never left up without a cooldown. */
  function GuardedCapture(b: Booth, cam: Camera): (r: Outcome)
    ensures r.shot.Some? <==> cam.mounted && ImgSize(cam.frame) > 0
    ensures r.shot.Some? ==> r.shot.value == Shot(b.style, b.overlay) && !Capture.Throws(cam.frame, b.style)
    ensures Released(b) ==> Released(r.booth)
    ensures r.shot.None? ==> r.booth == b
  {
    if !cam.mounted || ImgSize(cam.frame) == 0 then Outcome(b, None)
    else ExecuteCapture(b, cam)
  }

  /** The effect on `countdown` (src/App.jsx:200-212): at zero it clears the
      countdown and captures; otherwise a pending timer, if any, waits. */
  function Settle(b: Booth, cam: Camera): (r: Outcome)
    ensures r.booth.countdown != Some(0)
    ensures r.shot.Some? ==> b.countdown == Some(0) && cam.mounted
    ensures b.countdown == Some(0) ==> r.booth.countdown.None?
    ensures b.countdown == Some(0) && cam.mounted && !Capture.Throws(cam.frame, b.style) ==>
      r.shot == Some(Shot(b.style, b.overlay)) && r.booth.capturing && r.booth.cooling
    ensures b.countdown == Some(0) ==>
      r.booth == b.(countdown := None, capturing := cam.mounted || b.capturing, cooling := r.shot.Some? || b.cooling)
    ensures b.countdown != Some(0) ==> r.booth == b && r.shot.None?
  {
    if b.countdown == Some(0) then ExecuteCapture(b.(countdown := None), cam) else Outcome(b, None)
  }

  /** `handleCaptureClick` (src/App.jsx:192-198): capture at once with no delay,
      otherwise start the countdown and change nothing else. */
  function Click(b: Booth, cam: Camera): (r: Outcome)
    ensures r.shot.Some? <==> b.delay == 0 && cam.mounted && !Capture.Throws(cam.frame, b.style)
    ensures r.shot.Some? ==> r.shot.value == Shot(b.style, b.overlay)
    ensures b.delay == 0 ==> r == ExecuteCapture(b, cam)
    ensures b.delay == 0 ==> (r.booth.capturing <==> cam.mounted || b.capturing)
    ensures b.delay > 0 ==> r == Outcome(b.(countdown := Some(b.delay)), None)
  {
    if b.delay == 0 then ExecuteCapture(b, cam) else Outcome(b.(countdown := Some(b.delay)), None)
  }

  /** States the machine rests in between events: a countdown and a capture are
      never under way together, a countdown of zero never waits, and a pending
      cooldown belongs to a capture. */
  predicate Resting(b: Booth)
  {
    !(b.countdown.Some? && b.capturing) && b.countdown != Some(0) && (b.cooling ==> b.capturing)
  }

  function Step(b: Booth, e: Event, cam: Camera): Outcome
  {
    match e
    case PickStyle(id) => Outcome(b.(style := id), None)
    case PickDelay(t) => Outcome(b.(delay := t), None)
    case ToggleCinemaFrame => Outcome(b.(overlay := ToggleCinema(b.overlay)), None)
    case ToggleChillFrame => Outcome(b.(overlay := ToggleChill(b.overlay)), None)
    case Shutter => if ShutterEnabled(b) then Click(b, cam) else Outcome(b, None)
    case Tick =>
      if b.countdown.Some? && b.countdown.value > 0
      then Settle(b.(countdown := Some(b.countdown.value - 1)), cam)
      else Outcome(b, None)
    case CooldownOver =>
      if b.cooling then Outcome(b.(capturing := false, cooling := false), None) else Outcome(b, None)
  }

  /** What a single event can do: it keeps the machine resting; it fires a
      capture only from the shutter or a tick, with the selections of that
      moment, leaving the capture flag up with its cooldown pending and no
      countdown; a disabled shutter, a tick with no countdown running and a
      cooldown that was never scheduled do nothing. */
  lemma StepContract(b: Booth, e: Event, cam: Camera)
    ensures var r := Step(b, e, cam);
      && (Resting(b) ==> Resting(r.booth))
      && (r.shot.Some? ==> r.booth.capturing && r.booth.cooling && r.booth.countdown.None?)
      && (r.shot.Some? ==> r.shot.value == Shot(b.style, b.overlay) && (e == Shutter || e == Tick))
      && (e == Shutter && !ShutterEnabled(b) ==> r == Outcome(b, None))
      && (e == Tick && b.countdown.None? ==> r == Outcome(b, None))
      && (e == CooldownOver && !b.cooling ==> r == Outcome(b, None))
  {
  }

  /** A run of events: the final state and the captures fired, in order. */
  datatype Trace = Trace(booth: Booth, shots: seq<Shot>)

  function Run(b: Booth, events: seq<Event>, cam: Camera): (t: Trace)
    decreases |events|
  {
    if events == [] then Trace(b, [])
    else
      var o := Step(b, events[0], cam);
      var rest := Run(o.booth, events[1..], cam);
      Trace(rest.booth, Fired(o) + rest.shots)
  }

  /** The capture an outcome fired, as a list of zero or one. */
  function Fired(o: Outcome): seq<Shot>
  {
    if o.shot.Some? then [o.shot.value] else []
  }

  lemma RunCons(b: Booth, events: seq<Event>, cam: Camera)
    requires events != []
    ensures Run(b, events, cam)
      == var o := Step(b, events[0], cam);
         var rest := Run(o.booth, events[1..], cam);
         Trace(rest.booth, Fired(o) + rest.shots)
  {
  }

  lemma {:induction false} RunAppend(b: Booth, a: seq<Event>, c: seq<Event>, cam: Camera)
    ensures Run(b, a + c, cam).booth == Run(Run(b, a, cam).booth, c, cam).booth
    ensures Run(b, a + c, cam).shots == Run(b, a, cam).shots + Run(Run(b, a, cam).booth, c, cam).shots
    decreases |a|
  {
    if a == [] {
      assert a + c == c;
    } else {
      var o := Step(b, a[0], cam);
      assert (a + c)[0] == a[0] && (a + c)[1..] == a[1..] + c;
      RunCons(b, a + c, cam);
      RunCons(b, a, cam);
      var tail := Run(o.booth, a[1..], cam);
      RunAppend(o.booth, a[1..], c, cam);
      assert Fired(o) + (tail.shots + Run(tail.booth, c, cam).shots)
        == (Fired(o) + tail.shots) + Run(tail.booth, c, cam).shots;
    }
  }

  /** Every run from a resting state ends in a resting state, with at most
      one capture per event. */
  lemma {:induction false} RunResting(b: Booth, events: seq<Event>, cam: Camera)
    requires Resting(b)
    ensures Resting(Run(b, events, cam).booth)
    ensures |Run(b, events, cam).shots| <= |events|
    decreases |events|
  {
    if events != [] {
      RunResting(Step(b, events[0], cam).booth, events[1..], cam);
    }
  }

  /** Every state the booth reaches from its initial one is resting. */
  lemma ReachableResting(events: seq<Event>, cam: Camera)
    ensures Resting(Run(Initial, events, cam).booth)
  {
    RunResting(Initial, events, cam);
  }

  function Ticks(k: nat): (t: seq<Event>)
    ensures |t| == k && forall i :: 0 <= i < k ==> t[i] == Tick
  {
    seq(k, _ => Tick)
  }

  /** With the shutter free and no delay, a press captures at once. */
  lemma ShutterImmediate(b: Booth, cam: Camera)
    requires ShutterEnabled(b) && b.delay == 0
    requires cam.mounted && !Capture.Throws(cam.frame, b.style)
    ensures Step(b, Shutter, cam) == Outcome(b.(capturing := true, cooling := true), Some(Shot(b.style, b.overlay)))
  {
  }

  /** With a delay of `d` seconds, pressing the shutter and letting `k <= d`
      seconds pass captures nothing before the `d`-th second and exactly once at it. */
  lemma {:induction false} CountdownFiresOnce(b: Booth, k: nat, cam: Camera)
    requires ShutterEnabled(b) && b.delay > 0
    requires cam.mounted && !Capture.Throws(cam.frame, b.style)
    requires k <= b.delay
    ensures var t := Run(b, [Shutter] + Ticks(k), cam);
      && (k < b.delay ==> t.shots == [] && t.booth == b.(countdown := Some(b.delay - k)))
      && (k == b.delay ==> t.shots == [Shot(b.style, b.overlay)] && t.booth == b.(capturing := true, cooling := true))
    decreases k
  {
    if k == 0 {
      assert [Shutter] + Ticks(0) == [Shutter];
      assert Run(b, [Shutter], cam) == Trace(b.(countdown := Some(b.delay)), []);
    } else {
      assert [Shutter] + Ticks(k) == ([Shutter] + Ticks(k - 1)) + [Tick];
      RunAppend(b, [Shutter] + Ticks(k - 1), [Tick], cam);
      CountdownFiresOnce(b, k - 1, cam);
      var mid := b.(countdown := Some(b.delay - (k - 1)));
      RunCons(mid, [Tick], cam);
      assert [Tick][1..] == [];
    }
  }

  /** While a capture is cooling down nothing fires again, whatever is pressed
      or ticks, until the cooldown is over. */
  lemma {:induction false} NoShotWhileCooling(b: Booth, events: seq<Event>, cam: Camera)
    requires Resting(b) && b.capturing
    requires forall i :: 0 <= i < |events| ==> events[i] != CooldownOver
    ensures Run(b, events, cam).shots == []
    ensures Run(b, events, cam).booth.capturing
    decreases |events|
  {
    if events != [] {
      assert Step(b, events[0], cam).shot.None?;
      NoShotWhileCooling(Step(b, events[0], cam).booth, events[1..], cam);
    }
  }

  /** A capture flag raised with no cooldown pending is never lowered: the
      shutter stays disabled and nothing fires, whatever happens next. */
  lemma {:induction false} StuckWithoutCooldown(b: Booth, events: seq<Event>, cam: Camera)
    requires Resting(b) && b.capturing && !b.cooling
    ensures Run(b, events, cam).shots == []
    ensures Run(b, events, cam).booth.capturing && !Run(b, events, cam).booth.cooling
    decreases |events|
  {
    if events != [] {
      var o := Step(b, events[0], cam);
      assert o.shot.None? && o.booth.capturing && !o.booth.cooling && Resting(o.booth);
      StuckWithoutCooldown(o.booth, events[1..], cam);
    }
  }

  /** As written, pressing the shutter of the fresh booth while the video still
      reports a frame with no pixels (the camera denied or not yet loaded)
      raises the flag, saves nothing and schedules no cooldown: the shutter is
      disabled from then on, whatever the camera does later. */
  lemma EmptyFilmCaptureSticks(frame: VideoSize, events: seq<Event>, cam: Camera)
    requires ImgSize(frame) == 0
    ensures var first := Step(Initial, Shutter, Camera(true, frame));
      && first.shot.None? && !Released(first.booth)
      && Run(first.booth, events, cam).shots == []
      && !ShutterEnabled(Run(first.booth, events, cam).booth)
  {
    var first := Step(Initial, Shutter, Camera(true, frame));
    assert first.booth == Initial.(capturing := true);
    StuckWithoutCooldown(first.booth, events, cam);
  }
}

=== FILE: gallery.dfy ===
/**
 * The in-memory gallery (src/App.jsx:6, 17-24, 221-223): captures newest
 * first; saving prepends, deleting filters by id.
 */
module Gallery {

  /** `{ id: Date.now(), url: dataUrl }`; the id and the encoded image are opaque inputs. */
  datatype Capture = Capture(id: int, url: string)

  /** `setCaptures([newCapture, ...captures])`: the new capture first, the old list untouched behind it. */
  function Save(g: seq<Capture>, id: int, url: string): (r: seq<Capture>)
    ensures |r| == |g| + 1
    ensures r[0] == Capture(id, url)
    ensures r[1..] == g
  {
    [Capture(id, url)] + g
  }

  /** `a` is `b` with some entries left out, the rest in their order. */
  predicate SubsequenceOf(a: seq<Capture>, b: seq<Capture>)
    decreases |b|
  {
    a == [] || (b != [] && if a[0] == b[0] then SubsequenceOf(a[1..], b[1..]) else SubsequenceOf(a, b[1..]))
  }

  /** Number of entries with the given id (ids come from the clock and may repeat). */
  function CountId(g: seq<Capture>, id: int): nat
    decreases |g|
  {
    if g == [] then 0 else (if g[0].id == id then 1 else 0) + CountId(g[1..], id)
  }

  /** `captures.filter(c => c.id !== id)`: drops every entry with that id and
      keeps every other entry, in its original order. */
  function Remove(g: seq<Capture>, id: int): (r: seq<Capture>)
    ensures forall i :: 0 <= i < |r| ==> r[i].id != id
    ensures forall c :: c in g && c.id != id ==> c in r
    ensures forall c :: c in r ==> c in g
    ensures SubsequenceOf(r, g)
    ensures |r| + CountId(g, id) == |g|
    decreases |g|
  {
    if g == [] then []
    else if g[0].id == id then Remove(g[1..], id)
    else [g[0]] + Remove(g[1..], id)
  }

  /** Deleting distributes over concatenation: entries keep their relative order. */
  lemma {:induction false} RemoveConcat(a: seq<Capture>, b: seq<Capture>, id: int)
    ensures Remove(a + b, id) == Remove(a, id) + Remove(b, id)
    decreases |a|
  {
    if a == [] {
      assert a + b == b;
    } else {
      assert (a + b)[0] == a[0];
      assert (a + b)[1..] == a[1..] + b;
      RemoveConcat(a[1..], b, id);
    }
  }

  /** Deleting an id no entry carries leaves the gallery as it was. */
  lemma {:induction false} RemoveAbsent(g: seq<Capture>, id: int)
    requires forall i :: 0 <= i < |g| ==> g[i].id != id
    ensures Remove(g, id) == g
    decreases |g|
  {
    if g != [] {
      RemoveAbsent(g[1..], id);
    }
  }

  /** Deleting twice is deleting once. */
  lemma RemoveIdempotent(g: seq<Capture>, id: int)
    ensures Remove(Remove(g, id), id) == Remove(g, id)
  {
    RemoveAbsent(Remove(g, id), id);
  }

  /** Deleting a capture just saved removes it and any older entry with the same
      id; with a fresh id the gallery is back to what it was. */
  lemma SaveThenRemove(g: seq<Capture>, id: int, url: string)
    ensures Remove(Save(g, id, url), id) == Remove(g, id)
    ensures (forall i :: 0 <= i < |g| ==> g[i].id != id) ==> Remove(Save(g, id, url), id) == g
  {
    var r := Save(g, id, url);
    assert r[1..] == g;
    if forall i :: 0 <= i < |g| ==> g[i].id != id {
      RemoveAbsent(g, id);
    }
  }

  /** Deleting the only capture empties the gallery. */
  lemma RemoveOnly(c: Capture)
    ensures Remove([c], c.id) == []
  {
    assert [c][1..] == [];
  }
}

=== FILE: geometry.dfy ===
/**
 * Card layout of the capture routine (src/App.jsx:34-53, 138-162): a square
 * photo of side `imgSize = min(videoWidth, videoHeight)` cut from the centre
 * of the video frame, framed by a 5% border on three sides and a 20% band at
 * the bottom.  Lengths are exact reals; the canvas itself stores its width and
 * height as whole pixels, so the values assigned to it are truncated.
 */
module Geometry {

  /** Intrinsic size of the live video frame (`videoWidth`, `videoHeight`). */
  datatype VideoSize = VideoSize(width: nat, height: nat)

  /** The lengths the capture routine derives from `imgSize`.  `cardWidth` and
      `cardHeight` are the values assigned to the canvas; `canvasWidth` and
      `canvasHeight` are what the canvas keeps of them. */
  datatype Layout = Layout(
    imgSize: nat,
    padding: real,
    bottomPadding: real,
    cardWidth: real,
    cardHeight: real,
    canvasWidth: nat,
    canvasHeight: nat)

  /** `Math.min(video.videoWidth, video.videoHeight)`. */
  function ImgSize(v: VideoSize): (s: nat)
    ensures s <= v.width && s <= v.height
    ensures s == v.width || s == v.height
  {
    if v.width <= v.height then v.width else v.height
  }

  /** Assigning a non-negative number to `canvas.width` or `canvas.height`
      keeps its integer part. */
  function CanvasDimension(x: real): (n: nat)
    requires x >= 0.0
    ensures n as real <= x < n as real + 1.0
  {
    x.Floor
  }

  /** The layout the capture routine derives from the photo side `s`
      (src/App.jsx:35-40). */
  function LayoutFor(s: nat): (l: Layout)
    ensures l.imgSize == s
    ensures l.padding == s as real / 20.0
    ensures l.bottomPadding == s as real / 5.0
    ensures l.cardWidth == s as real * 1.1
    ensures l.cardHeight == s as real * 1.25
    ensures l.cardWidth <= l.cardHeight
    ensures s > 0 ==> l.cardWidth < l.cardHeight
    ensures l.canvasWidth as real <= l.cardWidth < l.canvasWidth as real + 1.0
    ensures l.canvasHeight as real <= l.cardHeight < l.canvasHeight as real + 1.0
    ensures l.canvasWidth == 0 <==> s == 0
    ensures l.canvasHeight == 0 <==> s == 0
  {
    var side := s as real;
    var padding := side * 0.05;
    var bottomPadding := side * 0.20;
    var w := side + padding * 2.0;
    var h := side + padding + bottomPadding;
    Layout(s, padding, bottomPadding, w, h, CanvasDimension(w), CanvasDimension(h))
  }

  /** The layout of a capture of frame `v`. */
  function LayoutOf(v: VideoSize): Layout
  {
    LayoutFor(ImgSize(v))
  }

  /** A layout the capture routine can produce: every length follows from the side. */
  predicate Derived(l: Layout)
  {
    l == LayoutFor(l.imgSize)
  }

  /** When the side is a multiple of 20 the canvas is exactly the card the
      routine asks for; for other sides it is up to a pixel smaller. */
  lemma {:induction false} WholeCard(s: nat)
    requires s % 20 == 0
    ensures LayoutFor(s).canvasWidth as real == LayoutFor(s).cardWidth
    ensures LayoutFor(s).canvasHeight as real == LayoutFor(s).cardHeight
  {
    var l := LayoutFor(s);
    var k := s / 20;
    assert l.cardWidth == (22 * k) as real;
    assert l.cardHeight == (25 * k) as real;
  }

  /** There is no check for an unready camera: a frame with no pixels gives a
      0x0 canvas, not a rejection. */
  lemma EmptyFrameEmptyCard(h: nat)
    ensures LayoutOf(VideoSize(0, h)).canvasWidth == 0
    ensures LayoutOf(VideoSize(0, h)).canvasHeight == 0
  {
  }

  /** The source rectangle of the photo inside the video frame. */
  datatype Crop = Crop(x: real, y: real, side: nat)

  /** `startX = (videoWidth - imgSize) / 2`, `startY` likewise. */
  function CropOf(v: VideoSize): (c: Crop)
    ensures c.side == ImgSize(v)
    ensures 0.0 <= c.x && c.x + c.side as real <= v.width as real
    ensures 0.0 <= c.y && c.y + c.side as real <= v.height as real
    ensures c.x == 0.0 || c.y == 0.0
    ensures c.x == v.width as real - (c.x + c.side as real)
    ensures c.y == v.height as real - (c.y + c.side as real)
  {
    var s := ImgSize(v);
    Crop((v.width - s) as real / 2.0, (v.height - s) as real / 2.0, s)
  }

  /** Horizontal translation of the mirrored photo, as written: `canvas.width - padding`
      reads back the truncated canvas width. */
  function MirrorOffsetAsWritten(l: Layout): real
  {
    l.canvasWidth as real - l.padding
  }

  /** Horizontal translation that puts the mirrored photo's right edge at the
      inner side of the right border: the card width minus the border. */
  function MirrorOffset(l: Layout): real
  {
    l.cardWidth - l.padding
  }

  /** Mirroring a slot point `x` through a translation by `offset` followed by `scale(-1, 1)`. */
  function MirroredX(offset: real, x: real): real
  {
    offset - x
  }

  /** With the intended offset the photo slot `[0, imgSize]` lands on
      `[padding, padding + imgSize]` reversed: the photo sits inside the white
      border, left and right swapped.  It fits within the card, and within the
      truncated canvas too once the side is at least 20 pixels. */
  lemma MirrorPlacesPhoto(s: nat, x: real, x': real)
    requires 0.0 <= x <= x' <= s as real
    ensures var l := LayoutFor(s);
      l.padding <= MirroredX(MirrorOffset(l), x') <= MirroredX(MirrorOffset(l), x) <= l.padding + l.imgSize as real
    ensures var l := LayoutFor(s);
      MirroredX(MirrorOffset(l), 0.0) == l.padding + l.imgSize as real
      && MirroredX(MirrorOffset(l), l.imgSize as real) == l.padding
    ensures var l := LayoutFor(s);
      l.padding + l.imgSize as real + l.padding == l.cardWidth
    ensures var l := LayoutFor(s);
      l.imgSize >= 20 ==> l.padding + l.imgSize as real <= l.canvasWidth as real
  {
  }

  /** As written, the photo's left edge sits at `canvasWidth - padding - imgSize`,
      short of the border by the fraction the canvas dropped from the width:
      it is at `padding` exactly when the side is a multiple of 10. */
  lemma {:induction false} MirrorAsWrittenShift(s: nat)
    ensures var l := LayoutFor(s);
      MirroredX(MirrorOffsetAsWritten(l), l.imgSize as real)
        == l.padding - (l.cardWidth - l.canvasWidth as real)
    ensures var l := LayoutFor(s);
      MirroredX(MirrorOffsetAsWritten(l), l.imgSize as real) == l.padding <==> l.imgSize % 10 == 0
  {
    var l := LayoutFor(s);
    var q, r := s / 10, s % 10;
    assert l.cardWidth == (11 * q) as real + r as real * 1.1;
    if r == 0 {
      assert l.canvasWidth == 11 * q;
    } else {
      assert (11 * q + r) as real < l.cardWidth < (11 * q + r + 1) as real;
      assert l.canvasWidth == 11 * q + r;
    }
  }

  /** A one-pixel video shows the as-written translation moving the photo past
      the left edge of the card. */
  lemma MirrorAsWrittenLeavesCard()
    ensures var l := LayoutFor(1);
      MirroredX(MirrorOffsetAsWritten(l), l.imgSize as real) < 0.0
  {
    var l := LayoutFor(1);
    assert l.canvasWidth == 1;
  }

  /** Baseline of the date, as written: `canvas.height - bottomPadding / 3`
      reads back the truncated canvas height. */
  function DateBaselineAsWritten(l: Layout): (y: real)
    requires Derived(l)
    ensures y <= l.canvasHeight as real
    ensures l.imgSize >= 4 ==> l.padding + l.imgSize as real < y
  {
    assert 4 <= l.imgSize < 8 ==> l.canvasHeight == (5 * l.imgSize) / 4;
    l.canvasHeight as real - l.bottomPadding / 3.0
  }

  /** For a side of 1, 2 or 3 pixels the as-written baseline falls inside the photo. */
  lemma DateAsWrittenInsidePhoto()
    ensures var l := LayoutFor(1); DateBaselineAsWritten(l) < l.padding + l.imgSize as real
    ensures var l := LayoutFor(2); DateBaselineAsWritten(l) < l.padding + l.imgSize as real
    ensures var l := LayoutFor(3); DateBaselineAsWritten(l) < l.padding + l.imgSize as real
  {
    assert LayoutFor(1).canvasHeight == 1;
    assert LayoutFor(2).canvasHeight == 2;
    assert LayoutFor(3).canvasHeight == 3;
  }

  /** Baseline of the date at two thirds of the bottom band, measured from the
      card height the routine asks for: strictly below the photo and inside the
      card for every non-empty photo. */
  function DateBaseline(l: Layout): (y: real)
    requires Derived(l)
    ensures l.imgSize > 0 ==> l.padding + l.imgSize as real < y < l.cardHeight
    ensures y == l.padding + l.imgSize as real + l.bottomPadding * 2.0 / 3.0
    ensures l.imgSize >= 15 ==> y <= l.canvasHeight as real
  {
    l.cardHeight - l.bottomPadding / 3.0
  }
}

=== FILE: grain.dfy ===
/**
 * The grain-and-dust stage of the film pipeline (src/App.jsx:71-78): single
 * white marks scattered over the photo slot.  `Math.random()` is injected as
 * a sequence of values in [0, 1), consumed three per mark (x, y, alpha).
 */
module Grain {

  /** Position and opacity of one 1x1 white mark, in photo-slot coordinates. */
  datatype Mark = Mark(x: real, y: real, alpha: real)

  /** Number of passes of `for (i = 0; i < imgSize * imgSize * 0.015; i++)`:
      the least natural number not below 0.015 * imgSize^2. */
  function GrainCount(s: nat): (n: nat)
    ensures n as real >= (s * s) as real * 0.015
    ensures n == 0 || ((n - 1) as real) < (s * s) as real * 0.015
  {
    var sq := s * s;
    (3 * sq + 199) / 200
  }

  /** The values `Math.random()` can return. */
  predicate UnitInterval(rand: seq<real>)
  {
    forall k :: 0 <= k < |rand| ==> 0.0 <= rand[k] < 1.0
  }

  /** `r * s` stays in [0, s) for `r` in [0, 1) and a positive `s`. */
  lemma ScaleInside(r: real, s: real)
    requires 0.0 <= r < 1.0 && 0.0 < s
    ensures 0.0 <= r * s < s
  {
    assert s - r * s == (1.0 - r) * s;
  }

  /** The `i`-th mark drawn from the random values; inside the square when the
      values are in [0, 1). */
  function MarkAt(s: nat, rand: seq<real>, i: nat): (m: Mark)
    requires 3 * i + 2 < |rand|
    requires UnitInterval(rand)
    requires s > 0
    ensures 0.0 <= m.x < s as real && 0.0 <= m.y < s as real
    ensures 0.0 <= m.alpha < 0.15
  {
    var side := s as real;
    var rx, ry, ra := rand[3 * i], rand[3 * i + 1], rand[3 * i + 2];
    var x, y := rx * side, ry * side;
    ScaleInside(rx, side);
    ScaleInside(ry, side);
    assert 0.0 <= x < side && 0.0 <= y < side;
    Mark(x, y, ra * 0.15)
  }

  /** The marks of one render: every mark lies inside the photo square with an
      opacity below 0.15. */
  function Scatter(s: nat, rand: seq<real>): (marks: seq<Mark>)
    requires |rand| >= 3 * GrainCount(s)
    requires UnitInterval(rand)
    ensures |marks| == GrainCount(s)
    ensures forall i :: 0 <= i < |marks| ==>
      && 0.0 <= marks[i].x < s as real
      && 0.0 <= marks[i].y < s as real
      && 0.0 <= marks[i].alpha < 0.15
  {
    if s == 0 then
      assert GrainCount(0) == 0;
      []
    else
      var n := GrainCount(s);
      seq(n, i requires 0 <= i < n => MarkAt(s, rand, i))
  }

  /** The loop of the capture routine, iteration by iteration: its real-valued
      guard `i < imgSize * imgSize * 0.015` stops after exactly `GrainCount`
      marks, the ones `Scatter` describes. */
  method ScatterLoop(s: nat, rand: seq<real>) returns (marks: seq<Mark>)
    requires |rand| >= 3 * GrainCount(s)
    requires UnitInterval(rand)
    ensures marks == Scatter(s, rand)
  {
    var limit := (s * s) as real * 0.015;
    marks := [];
    var i := 0;
    while (i as real) < limit
      invariant i <= GrainCount(s)
      invariant marks == Scatter(s, rand)[..i]
      decreases GrainCount(s) - i
    {
      marks := marks + [MarkAt(s, rand, i)];
      i := i + 1;
    }
  }
}

=== FILE: overlays.dfy ===
/**
 * The decorative text overlay of a card ("Frames" in the booth's controls):
 * `activeFrame` holds exactly one of 'none', 'cinema' and 'chill'
 * (src/App.jsx:8), so at most one overlay is ever selected.
 */
module Overlays {

  datatype Overlay = NoOverlay | Cinema | Chill

  /** The clapperboard button: pressing it on the cinema frame clears the frame,
      pressing it on any other frame selects cinema. */
  function ToggleCinema(o: Overlay): (r: Overlay)
    ensures r != o
    ensures r == NoOverlay <==> o == Cinema
    ensures r != Chill
  {
    if o == Cinema then NoOverlay else Cinema
  }

  /** The smiley button: the same toggle for the chill frame. */
  function ToggleChill(o: Overlay): (r: Overlay)
    ensures r != o
    ensures r == NoOverlay <==> o == Chill
    ensures r != Cinema
  {
    if o == Chill then NoOverlay else Chill
  }

  /** Pressing the same button twice restores the selection, except that
      starting from the other frame the second press clears it. */
  lemma ToggleTwice(o: Overlay)
    ensures o != Chill ==> ToggleCinema(ToggleCinema(o)) == o
    ensures o == Chill ==> ToggleCinema(ToggleCinema(o)) == NoOverlay
    ensures o != Cinema ==> ToggleChill(ToggleChill(o)) == o
    ensures o == Cinema ==> ToggleChill(ToggleChill(o)) == NoOverlay
  {
  }
}

=== FILE: styles.dfy ===
/**
 * Style dispatch of the capture routine (src/App.jsx:55, 105-127): the
 * selected style id picks either the multi-stage film pipeline or a single
 * canvas filter looked up in a fixed recipe table.  CSS filter strings are
 * modelled as chains of adjustments.
 */
module Styles {
  import opened Wrappers

  /** One CSS filter function with its argument. */
  datatype Adjustment =
    | Contrast(amount: real)
    | Brightness(amount: real)
    | Saturate(amount: real)
    | Sepia(amount: real)
    | Grayscale(amount: real)
    | HueRotate(degrees: real)
    | Blur(radius: real)

  /** The value of a canvas context's `filter`: 'none', or adjustments applied left to right. */
  datatype Filter = NoFilter | Chain(steps: seq<Adjustment>)

  const Special90s: string := "special90s"
  const Normal: string := "normal"

  /** `filterDefinitions` (src/App.jsx:107-119). */
  const FilterTable: map<string, seq<Adjustment>> := map[
    "vintage"  := [Sepia(0.8), Contrast(1.2), Brightness(0.9)],
    "bw"       := [Grayscale(1.0), Contrast(1.2), Brightness(1.1)],
    "warm"     := [Sepia(0.3), Saturate(1.6), HueRotate(-10.0)],
    "90s"      := [Sepia(0.2), Saturate(0.8), Contrast(0.9), Brightness(1.1), Blur(0.5)],
    "night"    := [Brightness(0.6), Contrast(1.4), Saturate(0.7)],
    "screen"   := [Brightness(1.2), Contrast(0.85), Saturate(0.9)],
    "faded"    := [Sepia(0.15), Contrast(0.85), Brightness(1.1)],
    "polaroid" := [Sepia(0.25), Contrast(1.1), Saturate(1.2), Brightness(1.05)],
    "dreamy"   := [Brightness(1.1), Saturate(1.1), Blur(1.0)],
    "cold"     := [HueRotate(15.0), Saturate(0.9), Contrast(1.1)],
    "vhs"      := [Contrast(1.3), Saturate(0.7), Brightness(1.05)]
  ]

  /** Stage filters of the film pipeline: base grade, colour cast, softening. */
  const BaseGrade: Filter := Chain([Contrast(0.9), Brightness(1.05), Saturate(0.85), Sepia(0.12)])
  const ColorCast: Filter := Chain([HueRotate(-6.0)])
  const Softening: Filter := Chain([Blur(0.6)])

  /** The style ids offered by the style buttons (src/App.jsx:325-336). */
  const SelectableStyles: seq<string> :=
    ["normal", "vintage", "special90s", "90s", "bw", "night", "screen", "faded", "polaroid", "dreamy", "vhs"]

  /** Every recipe of the table is a non-empty filter string, so `|| 'none'` never replaces a hit. */
  predicate RecipesNonEmpty()
  {
    forall id :: id in FilterTable ==> FilterTable[id] != []
  }

  /** `filterDefinitions[colorFilter] || 'none'`: the fallback applies to falsy
      lookups, and because no recipe is empty those are exactly the missing keys. */
  function Lookup(id: string): (f: Filter)
    ensures f == NoFilter <==> id !in FilterTable
    ensures f != NoFilter ==> f.steps == FilterTable[id]
  {
    assert RecipesNonEmpty();
    if id in FilterTable && FilterTable[id] != [] then Chain(FilterTable[id]) else NoFilter
  }

  /** The two branches of the capture routine.  `SinglePass(None)` leaves the
      context's filter as it is (the 'normal' style). */
  datatype Branch = FilmPipeline | SinglePass(filter: Option<Filter>)

  function Dispatch(id: string): (b: Branch)
    ensures b.FilmPipeline? <==> id == Special90s
    ensures b == SinglePass(None) <==> id == Normal
    ensures b.SinglePass? && b.filter.Some? ==> b.filter.value == Lookup(id)
    ensures b == SinglePass(Some(NoFilter)) <==> id !in FilterTable && id != Special90s && id != Normal
  {
    if id == Special90s then FilmPipeline
    else if id != Normal then SinglePass(Some(Lookup(id)))
    else SinglePass(None)
  }

  /** The filter in effect while the photo is first drawn, given the filter the
      context holds beforehand; `None` for the film pipeline, which sets its own. */
  function PhotoFilter(id: string, current: Filter): (f: Option<Filter>)
    ensures f.None? <==> id == Special90s
    ensures id == Normal ==> f == Some(current)
    ensures id != Special90s && id != Normal ==> f == Some(Lookup(id))
  {
    match Dispatch(id)
    case FilmPipeline => None
    case SinglePass(None) => Some(current)
    case SinglePass(Some(g)) => Some(g)
  }

  /** Every offered style reaches a known branch: the 'none' fallback is
      reachable only through ids the buttons never set, and the table holds two
      recipes, warm and cold, that no button offers. */
  lemma SelectableStylesResolve()
    ensures forall id :: id in SelectableStyles ==> id == Special90s || id == Normal || id in FilterTable
    ensures forall id :: id in SelectableStyles ==> Dispatch(id) != SinglePass(Some(NoFilter))
    ensures "warm" in FilterTable && "warm" !in SelectableStyles
    ensures "cold" in FilterTable && "cold" !in SelectableStyles
  {
  }
}

=== FILE: wrappers.dfy ===
/** The optional value used for React state that may be `null`. */
module Wrappers {

  datatype Option<+T> = None | Some(value: T)
}
